=== FILE: README.md ===
# Deployment manager data layer: a Dafny model

This project models the data layer of a small web admin panel that tracks deployed applications. The model covers five parts:

- **The entity store** (`models.dfy`, `relationships.dfy`). It has five record types: User, Application, DomainConfig, Backup and DeploymentLog. Each table is a map from integer id to record. Committing a record fills in the declared column defaults, refuses an INTEGER value outside SQLite's 64-bit range, and then checks the declared NOT NULL, UNIQUE and FOREIGN KEY constraints. A refused commit leaves the store unchanged. The predicate `Models.Valid` says that every committed row meets those constraints and that range. Every insert preserves it. A new row's id is one more than the largest id in its table, as SQLite assigns an INTEGER PRIMARY KEY. The relationship attributes (`user.applications`, `application.logs` and so on) are modelled as filters over the store.
- **Password handling** (`passwords.dfy`, and `SetPassword` / `CheckPassword` in `models.dfy`). The salted hash is supplied by the caller as a pair of function values. The one property the model relies on, "a generated hash verifies against its password", is the predicate `Passwords.Sound`.
- **The default-user seed** (`default_user.dfy`). It checks by username, then inserts the administrator account through the same insert as everything else.
- **The additive column migration** (`migrate_db.dfy`). It backs up the database file, reads the `application` column names, and appends whichever of five resource columns are missing. A database file is modelled as its tables (name and columns, in order) plus opaque row bytes. SQLite finds tables and detects duplicate columns ignoring the case of ASCII letters. The script's own "already there?" test is an exact string comparison.
- **Database URL selection** (`database_url.dfy`). It applies the fallback URL and rewrites the `postgres://` scheme.

Nothing reads a clock, the environment or the disk. The commit time (`now`), the hasher's salt, the `DATABASE_URL` value and the file system are all parameters.

## Model

| member | source | states |
|---|---|---|
| Models.NextId | models.py:7 | A new row's id is fresh: it is larger than every id in the table. It is 1 for an empty table, and otherwise one more than an id in use, which makes it the largest id plus one. |
| Models.InsertUser | models.py:6-11 | A new user is committed exactly when username, email and password hash are present and neither the username nor the email is already on record. A refusal reports one of the violated constraints and leaves the store unchanged. On success only the user table grows, by one fresh id, holding the given object with `created_at` defaulted to the commit time. The store stays valid. |
| Models.DuplicateUserRefused | models.py:8-9 | Inserting a user whose username or email is already taken is refused, and the store is unchanged. |
| Models.SetPassword | models.py:17-18 | `set_password` stores the hasher's output for the password, not the password itself. Username, email and creation time are unchanged. |
| Models.CheckPassword | models.py:20-21 | `check_password` raises (here `None`) exactly when the user has no hash. Otherwise it returns the hasher's verdict on the stored hash and the candidate. |
| Models.CheckAfterSetPassword | models.py:17-21 | With a sound hasher, `check_password` accepts the password just set, whatever salt was drawn. |
| Models.CommittedUserCheckable | models.py:20-21 | `password_hash` is NOT NULL, so `check_password` on a committed user never raises. |
| Models.UpdatePassword | models.py:17-18 | Setting a committed user's password fails with NotFound only for an unknown id. Otherwise that user's `password_hash` is always replaced by the hash generated from the new password with this call's salt. No other column, row or table changes. With a sound hasher the new password checks, and the store stays valid. |
| Models.InsertApplication | models.py:26-47 | An application is committed exactly when `port`, `memory_limit`, `cpu_limit` and `disk_limit` are absent or within the 64-bit INTEGER range, `name` and `replit_url` are present, and `user_id` names an existing user. Otherwise it is refused with a violated constraint and the store is unchanged. On success only the application table grows, by one fresh id, and the store stays valid. |
| Models.InsertedApplicationDefaults | models.py:31-44 | A committed application has `status` "stopped", `memory_limit` 256, `cpu_limit` 50, `disk_limit` 1024 and `auto_restart` true, and `created_at` set to the commit time, for every one of these the caller left unset. It keeps the caller's value for every column the caller set. |
| Models.InsertDomainConfig | models.py:57-73 | A domain configuration is committed exactly when `domain_name` is present and `application_id` names an existing application. Otherwise it is refused with a violated constraint and the store is unchanged. On success only that table grows, by one fresh id, holding the record with its declared defaults filled in, and the store stays valid. |
| Models.InsertedDomainConfigDefaults | models.py:60-61 | A committed domain configuration has `is_active` true, `ssl_enabled` false and `created_at` set to the commit time, unless the caller gave them. Every other column is as given. |
| Models.InsertBackup | models.py:78-87 | A backup record is committed exactly when `backup_size` is absent or within the 64-bit INTEGER range, `backup_path` is present, and `application_id` names an existing application. Otherwise it is refused with a violated constraint and the store is unchanged. On success only that table grows, by one fresh id, and the store stays valid. |
| Models.InsertedBackupDefaults | models.py:82-84 | A committed backup record has `status` "completed" and `created_at` set to the commit time, unless the caller gave them. Every other column is as given. |
| Models.InsertLog | models.py:92-101 | A log entry is committed exactly when `action` and `status` are present and both `user_id` and `application_id` name existing rows. Otherwise it is refused with a violated constraint and the store is unchanged. On success only the log table grows, by one fresh id, with `timestamp` defaulted to the commit time, and the store stays valid. |
| Relationships.ApplicationsOf | models.py:14 | `user.applications` holds exactly the applications whose `user_id` is that user, with their rows. |
| Relationships.LogsOfUser | models.py:15 | `user.logs` holds exactly the log entries whose `user_id` is that user, with their rows. |
| Relationships.LogsOfApplication | models.py:50 | `application.logs` holds exactly the log entries whose `application_id` is that application, with their rows. |
| Relationships.DomainConfigsOf | models.py:51 | `application.domain_configs` holds exactly the domain configurations whose `application_id` is that application, with their rows. |
| Relationships.BackupsOf | models.py:52 | `application.backups` holds exactly the backup records whose `application_id` is that application, with their rows. |
| Relationships.Owner | models.py:14 | The `owner` back-reference of an application is the user its `user_id` names, and the application is in that user's `applications` view. |
| Relationships.ApplicationInExactlyOneOwnerView | models.py:47 | In a valid store, every application is in the `applications` view of exactly one user, an existing one. |
| Relationships.ChildrenInParentViews | models.py:50-52 | In a valid store, every domain configuration, backup and log is in the view of the existing application its foreign key names. Every log is also in the `logs` view of its existing user. |
| Relationships.NewUserOwnsNothing | models.py:14-15 | A freshly committed user has empty `applications` and `logs` views. |
| Relationships.InsertApplicationUpdatesViews | models.py:47 | Committing an application adds it to its owner's `applications` view and leaves every other user's view unchanged. |
| Relationships.NewApplicationHasNoChildren | models.py:50-52 | A freshly committed application has empty `logs`, `domain_configs` and `backups` views. |
| Relationships.InsertLogUpdatesApplicationViews | models.py:101 | Committing a log adds it to its application's `logs` view. Every other application's view is unchanged. |
| Relationships.InsertLogUpdatesUserViews | models.py:100 | Committing a log adds it to its user's `logs` view. Every other user's view is unchanged. |
| Relationships.DeployLogScenario | models.py:92-101 | Create an application for an existing user, then log a successful deploy of it. The application's `logs` view then holds exactly that one entry, with action "deploy" and status "success". |
| DefaultUser.CreateDefaultUser | create_default_user.py:4-23 | If the username `viewtecnologia` exists, the store is unchanged. If only the email `admin@gerenciador.com` is taken, the commit is refused with a unique violation on email and the store is unchanged. Otherwise exactly one user is added, with that username and email, the hashed default password and the commit time. No user already on record is changed, and the store stays valid. |
| DefaultUser.SeededUserCanLogIn | create_default_user.py:13-21 | When both username and email are free, the seeded account exists afterwards. With a sound hasher, its password checks against the default password. |
| DefaultUser.SeedOnFreshDatabase | create_default_user.py:7-21 | On a freshly created, empty database, the seed creates the administrator as user 1. With a sound hasher, its password checks against the default password. |
| DefaultUser.SeedIdempotent | create_default_user.py:7-21 | Running the seed twice leaves the same store as running it once, for any salts and clocks. |
| DefaultUser.SeedRefusedOnForeignEmail | create_default_user.py:7-15 | The existence test looks only at the username. When another user already holds the default email, the seed is refused and the store is unchanged. |
| Migration.MissingFromMembers | migrate_db.py:33-57 | The ALTER statements issued are exactly the candidate columns whose name is not in the list read once before the first ALTER. |
| Migration.MissingFromKeepsOrder | migrate_db.py:36-57 | Missing columns are issued in the order the script tries them. |
| Migration.AddMissingColumns | migrate_db.py:36-57 | Migrating a column list keeps every existing column in its position. It appends exactly the additions whose names were missing. |
| Migration.MigrationAddsEveryColumn | migrate_db.py:36-58 | After migrating, `memory_limit`, `cpu_limit`, `disk_limit`, `app_type` and `auto_restart` are all among the column names. |
| Migration.MigrationAppendsInOrder | migrate_db.py:36-57 | The appended columns follow the fixed order memory_limit, cpu_limit, disk_limit, app_type, auto_restart. |
| Migration.MigrationKeepsNamesDistinct | migrate_db.py:36-56 | A column already present is never added again, so a list without duplicate names keeps that property. |
| Migration.MigrationIdempotent | migrate_db.py:31-58 | Migrating an already-migrated column list leaves it unchanged. |
| Migration.MigrationDefaultsMatchModel | migrate_db.py:37-57 | The declared defaults are 256, 50, 1024 and 1, the model's defaults for the same columns (auto_restart true is 1). `app_type` has no default. |
| Migration.FindTable | migrate_db.py:31-37 | `PRAGMA table_info(application)` and `ALTER TABLE application` act on the first table whose name equals `application` ignoring ASCII case, if there is one. |
| Migration.ApplyAlters | migrate_db.py:35-58 | The ADD COLUMN statements run in order. Every statement that ran found no column of its name, ignoring case, in the table as it stood then. The one refused found such a column, and that first refusal stops the rest. The statements before it stay. |
| Migration.ApplyAltersStopsAtClash | migrate_db.py:35-58 | When no two statements name the same identifier, the statements that ran each lacked a column of their name in the original table, and the refused one had one. |
| Migration.MigrateColumns | migrate_db.py:31-65 | On an existing `application` table, every existing column stays, in its position, whether or not the pass fails. |
| Migration.MigrateColumnsRuns | migrate_db.py:31-65 | The columns appended are a prefix of the issued ones, and each has a name the table lacked under any spelling. |
| Migration.MigrateColumnsCompletes | migrate_db.py:31-65 | The pass completes exactly when no issued column is already in the table under another spelling. It then holds exactly the migrated column list and reports the appended names. A failed pass stopped at an issued column the table already had. |
| Migration.MigrateColumnsIdempotent | migrate_db.py:31-65 | A second pass over the table a first pass left changes no column. After a completed pass it adds nothing, and after a failed pass it fails again. |
| Migration.BackupDb | migrate_db.py:5-17 | If the database file exists, the backup path afterwards holds a copy of it. If it does not exist, nothing is written. No other file changes. |
| Migration.MigrateImage | migrate_db.py:25-65 | With no table named `application` in any case, the run fails and the database is unchanged. Otherwise that table gets the column pass. Row data, table names and every other table are untouched. |
| Migration.MigrateImageIdempotent | migrate_db.py:25-65 | A second pass over the database a first pass left changes nothing, for every database. |
| Migration.MixedCaseNames | migrate_db.py:31-65 | A table declared `Application` is found. An existing `Memory_limit` column passes the script's exact test, so `memory_limit` is issued, and SQLite refuses it as a duplicate. The run fails and the table is unchanged. |
| Migration.MigrateDatabase | migrate_db.py:19-70 | The backup equals the database as it was before any column was altered. Without a database file, no backup is written, and the statements run on an empty database. The database file afterwards, and the report, are those of the statements. No other file is touched. |
| Migration.MigrateDatabaseIdempotent | migrate_db.py:19-65 | For every starting set of files, a second run leaves the database as the first run left it. A completed first run is followed by one that reports nothing added. A failed one is followed by another failure. The second backup is a copy of the database the first run left. |
| DatabaseUrl.ConfiguredUrl | app.py:25 | An unset `DATABASE_URL` yields `sqlite:///deploy_manager.db`. A set one, even an empty one, is used as it is. |
| DatabaseUrl.Normalize | app.py:27-28 | A URL starting with `postgres://` gets `postgresql://` instead, with the rest unchanged and the length grown by exactly 2. Any other URL is returned unchanged. The result never starts with `postgres://`. |
| DatabaseUrl.DatabaseUri | app.py:25-30 | The configured database URI is the default when unset, the given URL when it does not start with `postgres://`, and the rewritten one when it does. |
| DatabaseUrl.NormalizeIdempotent | app.py:27-28 | Normalising twice gives the same result as normalising once. |

## Left out

- Flask, Flask-Login and blueprint wiring are framework plumbing, so they are not modelled. This covers the user loader, the session secret, logging setup and the connection-pool options (app.py:10-22, 29-62).
- The password-hash algorithm is a foreign library call. It is the caller-supplied `Passwords.Hasher`. That a wrong password is rejected, and that the stored hash never equals the plaintext, are properties of that algorithm and are not stated.
- Timestamps come from the system clock in the source. Here the commit time is a parameter.
- Status, `app_type` and `ddns_provider` value sets are comments in the source. They are free strings here, not enforced enumerations.
- Deletion and cascade behaviour is not modelled, because the source declares no rule.
- Models.NextId: ids follow SQLite's rule, the largest id plus one. On PostgreSQL the id comes from a sequence, and a refused insert still consumes a value, so ids there can skip. Only freshness is relied on elsewhere. SQLite's random choice once the largest id reaches 2^63 - 1 is not modelled, because ids are unbounded here.
- Models.InsertApplication: the INTEGER range checked is SQLite's 64-bit one. On PostgreSQL the same columns are 32-bit, so values from 2^31 to 2^63 - 1 would be refused there but are accepted here. An out-of-range `user_id` is reported as a foreign-key violation, not as an overflow.
- Models.InsertBackup: as for applications, the range of `backup_size` is SQLite's 64-bit one, not PostgreSQL's 32-bit one. An out-of-range `application_id` is reported as a foreign-key violation.
- `String(n)` length limits are not modelled, because SQLite does not enforce them.
- Foreign keys are modelled as the declared contract. SQLite, the default backend, enforces them only when `PRAGMA foreign_keys` is on, which the source never sets.
- Models.InsertUser: an explicit NULL on a column with a default is not distinguished from an unset attribute; both receive the default. The same holds for the other inserts.
- Models.InsertUser: when several constraints are violated, which one is reported is a choice of the model. The contract only promises that the reported one is violated.
- Migration.MigrateDatabase: two failures are modelled, a missing `application` table and a duplicate column under another spelling. Each ALTER runs outside a transaction in Python's sqlite3 module, so the ones before a failure stay committed, and the model keeps them. Disk errors, a locked database, and an unbound `conn` when connecting itself raises (migrate_db.py:27, 69) are not modelled. Identifier folding covers ASCII letters only, as SQLite's does by default.
- Migration.MigrateDatabase: the script imports app.py first (migrate_db.py:1), and that import runs `db.create_all()` (app.py:43-48). With the default URL, that call creates the database file and any missing table, `application` with all five columns included, before `backup_db` runs. That import-time step is not modelled. The files are taken as `migrate_database` finds them, so the "no database file" and "no such table" cases stated here are reached only when `create_all` wrote elsewhere, for instance to another database named by `DATABASE_URL`.
- Printed messages are reduced to the outcome value they announce.
- Concurrency, sessions and transactions are left out. Each insert is one commit.
- Read-by-id, generic field updates and the route handlers are not part of this model. The route modules are not part of it either.

=== FILE: database_url.dfy ===
/** The choice of database connection string in app.py: read `DATABASE_URL`
    from the environment, fall back to a local SQLite file, and rewrite the
    legacy `postgres://` scheme to the `postgresql://` spelling the database
    driver accepts. The environment lookup is a parameter. */
module DatabaseUrl {
  import opened Wrappers

  const DefaultUrl: string := "sqlite:///deploy_manager.db"
  const LegacyScheme: string := "postgres://"
  const Scheme: string := "postgresql://"

  /** `os.environ.get("DATABASE_URL", default)`: an unset variable yields
      the default, a set one (even an empty one) is used as it is. */
  function ConfiguredUrl(env: Option<string>): (r: string)
    ensures env.None? ==> r == DefaultUrl
    ensures env.Some? ==> r == env.value
  {
    env.GetOr(DefaultUrl)
  }

  /** The scheme rewrite of app.py: applied only when the URL starts with
      the legacy scheme (a set-but-empty URL is left alone as well). There
      `url.replace(LegacyScheme, Scheme, 1)` replaces the leftmost
      occurrence, which for such a URL is the one at index 0. */
  function Normalize(url: string): (r: string)
    // a legacy URL gets the new scheme, with everything after it unchanged
    ensures LegacyScheme <= url ==>
              && Scheme <= r
              && r[|Scheme|..] == url[|LegacyScheme|..]
              && |r| == |url| + 2
    // any other URL is returned as it is
    ensures !(LegacyScheme <= url) ==> r == url
    // the result never carries the legacy scheme
    ensures !(LegacyScheme <= r)
  {
    if |url| > 0 && LegacyScheme <= url then
      var r := Scheme + url[|LegacyScheme|..];
      // "postgresql://" and "postgres://" differ at index 8
      assert r[8] != LegacyScheme[8];
      r
    else
      url
  }

  /** `SQLALCHEMY_DATABASE_URI` as app.py computes it. */
  function DatabaseUri(env: Option<string>): (r: string)
    ensures env.None? ==> r == DefaultUrl
    ensures env.Some? && !(LegacyScheme <= env.value) ==> r == env.value
    ensures env.Some? && LegacyScheme <= env.value ==> r == Scheme + env.value[|LegacyScheme|..]
  {
    assert DefaultUrl[0] != LegacyScheme[0];
    Normalize(ConfiguredUrl(env))
  }

  /** Normalising twice is normalising once. */
  lemma NormalizeIdempotent(url: string)
    ensures Normalize(Normalize(url)) == Normalize(url)
  {
  }
}

=== FILE: default_user.dfy ===
/** The seeding script create_default_user.py: make sure the administrator
    account exists. The existence test looks at the username only; when the
    username is free a new user is built, its password set through
    `SetPassword`, and the row committed. */
module DefaultUser {
  import opened Wrappers
  import opened Passwords
  import opened Models

  const DefaultUsername: string := "viewtecnologia"
  const DefaultEmail: string := "admin@gerenciador.com"
  const DefaultPassword: string := "Rai2804@2804"

  /** What the script reports: the user was already there, it was created
      under `id`, or the commit was refused (the script then stops with the
      database error). */
  datatype SeedOutcome = AlreadyExists | Created(id: Id) | Refused(error: DbError)

  datatype SeedRun = SeedRun(store: Store, outcome: SeedOutcome)

  /** The user object the script builds before committing it. */
  function DefaultUserDraft(h: Hasher, salt: string): User {
    SetPassword(User(Some(DefaultUsername), Some(DefaultEmail), None, None), h, DefaultPassword, salt)
  }

  /** `create_default_user`. `salt` is the randomness the hasher draws and
      `now` the commit time. */
  function CreateDefaultUser(s: Store, h: Hasher, salt: string, now: Timestamp): (r: SeedRun)
    requires Valid(s)
    ensures Valid(r.store)
    // the username is already on record: nothing is written
    ensures UsernameTaken(s, DefaultUsername) ==> r == SeedRun(s, AlreadyExists)
    // the username is free but the email is not: the commit is refused
    ensures !UsernameTaken(s, DefaultUsername) && EmailTaken(s, DefaultEmail) ==>
              r == SeedRun(s, Refused(UniqueViolation(UserTable, "email")))
    // both are free: exactly one user is added, with the hashed default password
    ensures !UsernameTaken(s, DefaultUsername) && !EmailTaken(s, DefaultEmail) ==>
              && r.outcome.Created?
              && AddsUser(s, r.store, r.outcome.id)
              && r.store.users[r.outcome.id].username == Some(DefaultUsername)
              && r.store.users[r.outcome.id].email == Some(DefaultEmail)
              && r.store.users[r.outcome.id].passwordHash == Some(h.generate(DefaultPassword, salt))
              && r.store.users[r.outcome.id].createdAt == Some(now)
    // no user already on record is touched
    ensures forall k :: k in s.users ==> k in r.store.users && r.store.users[k] == s.users[k]
  {
    if UsernameTaken(s, DefaultUsername) then SeedRun(s, AlreadyExists)
    else
      var w := InsertUser(s, DefaultUserDraft(h, salt), now);
      match w.result
      case Success(id) => SeedRun(w.store, Created(id))
      case Failure(e) => SeedRun(w.store, Refused(e))
  }

  /** After the seed, the administrator account exists unless its email was
      already held by another user; with a sound hasher its password checks. */
  lemma SeededUserCanLogIn(s: Store, h: Hasher, salt: string, now: Timestamp)
    requires Valid(s) && Sound(h)
    requires !UsernameTaken(s, DefaultUsername) && !EmailTaken(s, DefaultEmail)
    ensures var r := CreateDefaultUser(s, h, salt, now);
            && UsernameTaken(r.store, DefaultUsername)
            && r.store.users[r.outcome.id].passwordHash.Some?
            && CheckPassword(r.store.users[r.outcome.id], h, DefaultPassword) == Some(true)
  {
    var r := CreateDefaultUser(s, h, salt, now);
    assert r.store.users[r.outcome.id].username == Some(DefaultUsername);
  }

  /** On a freshly created database the seed creates the administrator as
      user 1, and with a sound hasher its password checks. */
  lemma SeedOnFreshDatabase(h: Hasher, salt: string, now: Timestamp)
    requires Sound(h)
    ensures Valid(EmptyStore)
    ensures var r := CreateDefaultUser(EmptyStore, h, salt, now);
            && r.outcome == Created(1)
            && CheckPassword(r.store.users[1], h, DefaultPassword) == Some(true)
  {
    EmptyStoreValid();
    SeededUserCanLogIn(EmptyStore, h, salt, now);
  }

  /** Running the seed twice leaves the same store as running it once,
      whatever salts and clocks the two runs see. */
  lemma SeedIdempotent(s: Store, h: Hasher, salt1: string, salt2: string, now1: Timestamp, now2: Timestamp)
    requires Valid(s)
    ensures var once := CreateDefaultUser(s, h, salt1, now1);
            CreateDefaultUser(once.store, h, salt2, now2).store == once.store
  {
    var once := CreateDefaultUser(s, h, salt1, now1);
    if !UsernameTaken(s, DefaultUsername) && !EmailTaken(s, DefaultEmail) {
      var id := once.outcome.id;
      assert id in once.store.users && once.store.users[id].username == Some(DefaultUsername);
      assert UsernameTaken(once.store, DefaultUsername);
    }
  }

  /** The seed's existence test is by username only: a store where another
      user already holds the default email makes the seed fail, and a second
      run fails the same way. */
  lemma SeedRefusedOnForeignEmail(s: Store, h: Hasher, salt: string, now: Timestamp, other: Id)
    requires Valid(s)
    requires other in s.users && s.users[other].email == Some(DefaultEmail)
    requires s.users[other].username != Some(DefaultUsername)
    requires !UsernameTaken(s, DefaultUsername)
    ensures CreateDefaultUser(s, h, salt, now).outcome.Refused?
    ensures CreateDefaultUser(s, h, salt, now).store == s
  {
    assert EmailTaken(s, DefaultEmail);
  }
}

=== FILE: migrate_db.dfy ===
/** The maintenance script migrate_db.py: copy the SQLite database file to a
    backup, read the column names of the `application` table, and append each
    of five resource columns that is not there yet.

    A database file is seen through what the script touches: every table's
    name and ordered column list, and the pages holding the rows as opaque
    bytes. SQLite's ADD COLUMN rewrites only the schema, so the row bytes
    pass through a migration unchanged. SQLite matches table and column
    names ignoring the case of ASCII letters; the script's own test of a
    column name is an exact comparison. */
module Migration {
  import opened Wrappers
  import Models

  /** A column as ADD COLUMN declares it; `default` is the declared integer
      default, if any. */
  datatype Column = Column(name: string, declaredType: string, default: Option<int>)

  /** A table of the schema: its name as declared and its columns in order. */
  datatype Table = Table(name: string, columns: seq<Column>)

  /** The content of a SQLite database file: the schema in creation order. */
  datatype DbImage = DbImage(tables: seq<Table>, rowData: seq<bv8>)

  /** Files on disk, by path. */
  type Files = map<string, DbImage>

  const DbPath: string := "instance/deploy_manager.db"
  const BackupPath: string := "instance/deploy_manager.db.bak"

  /** What connecting to a missing database file creates. */
  const EmptyDatabase: DbImage := DbImage([], [])

  const MemoryLimitColumn: Column := Column("memory_limit", "INTEGER", Some(256))
  const CpuLimitColumn: Column := Column("cpu_limit", "INTEGER", Some(50))
  const DiskLimitColumn: Column := Column("disk_limit", "INTEGER", Some(1024))
  const AppTypeColumn: Column := Column("app_type", "VARCHAR(20)", None)
  const AutoRestartColumn: Column := Column("auto_restart", "BOOLEAN", Some(1))

  /** The columns the script adds, in the order it tries them. */
  const Additions: seq<Column> :=
    [MemoryLimitColumn, CpuLimitColumn, DiskLimitColumn, AppTypeColumn, AutoRestartColumn]

  /** The result of one run: the files afterwards, and what the script
      reports. A failure is reported and swallowed, never raised; the ALTER
      statements that ran before it stay, each having been committed on its
      own. */
  datatype MigrationOutcome = Completed(added: seq<string>) | Failed(reason: string)

  datatype MigrationRun = MigrationRun(files: Files, outcome: MigrationOutcome)

  // ---------------------------------------------------------------------
  // Identifiers

  /** SQLite's identifier comparison folds ASCII upper case to lower case and
      leaves every other character alone. */
  function FoldChar(c: char): (r: char)
    ensures 'A' <= c <= 'Z' ==> 'a' <= r <= 'z' && r as int == c as int + 32
    ensures !('A' <= c <= 'Z') ==> r == c
  {
    if 'A' <= c <= 'Z' then (c as int + 32) as char else c
  }

  function Fold(s: string): (r: string)
    ensures |r| == |s|
    ensures forall i :: 0 <= i < |s| ==> r[i] == FoldChar(s[i])
  {
    seq(|s|, i requires 0 <= i < |s| => FoldChar(s[i]))
  }

  /** Two identifiers name the same table or column. */
  predicate SameIdentifier(a: string, b: string) {
    Fold(a) == Fold(b)
  }

  /** A name without ASCII upper-case letters is its own folding. */
  predicate LowerCase(s: string) {
    forall i :: 0 <= i < |s| ==> !('A' <= s[i] <= 'Z')
  }

  lemma FoldLowerCase(s: string)
    requires LowerCase(s)
    ensures Fold(s) == s
  {
  }

  /** Folding works character by character. */
  lemma FoldCons(c: char, s: string)
    ensures Fold([c] + s) == [FoldChar(c)] + Fold(s)
  {
  }

  /** The table `PRAGMA table_info(name)` and `ALTER TABLE name` act on: the
      first whose name matches ignoring case, or |tables| when none does. */
  function FindTable(tables: seq<Table>, name: string): (i: nat)
    ensures i <= |tables|
    ensures i < |tables| ==> SameIdentifier(tables[i].name, name)
    ensures forall j :: 0 <= j < i ==> !SameIdentifier(tables[j].name, name)
  {
    if tables == [] then 0
    else if SameIdentifier(tables[0].name, name) then 0
    else 1 + FindTable(tables[1..], name)
  }

  /** The lookup depends on the table names only. */
  lemma {:induction false} FindTableByNames(a: seq<Table>, b: seq<Table>, name: string)
    requires |a| == |b|
    requires forall i :: 0 <= i < |a| ==> a[i].name == b[i].name
    ensures FindTable(a, name) == FindTable(b, name)
  {
    if a != [] {
      FindTableByNames(a[1..], b[1..], name);
    }
  }

  /** A column of `cols` has `name`, ignoring case: ADD COLUMN of that name
      is refused as a duplicate. */
  predicate HasColumn(cols: seq<Column>, name: string) {
    exists j :: 0 <= j < |cols| && SameIdentifier(cols[j].name, name)
  }

  /** No two columns' names are equal ignoring case. */
  predicate FoldedDistinct(cols: seq<Column>) {
    forall i, j :: 0 <= i < j < |cols| ==> Fold(cols[i].name) != Fold(cols[j].name)
  }

  // ---------------------------------------------------------------------
  // Column lists

  /** The column names, as PRAGMA table_info lists them. */
  function Names(cols: seq<Column>): (r: seq<string>)
    ensures |r| == |cols|
    ensures forall i :: 0 <= i < |cols| ==> r[i] == cols[i].name
  {
    seq(|cols|, i requires 0 <= i < |cols| => cols[i].name)
  }

  lemma NamesAppend(a: seq<Column>, b: seq<Column>)
    ensures Names(a + b) == Names(a) + Names(b)
  {
  }

  lemma NameInNames(cols: seq<Column>, c: Column)
    requires c in cols
    ensures c.name in Names(cols)
  {
    var i :| 0 <= i < |cols| && cols[i] == c;
    assert Names(cols)[i] == c.name;
  }

  predicate NamesDistinct(cols: seq<Column>) {
    forall i, j :: 0 <= i < j < |cols| ==> cols[i].name != cols[j].name
  }

  /** `a` is `b` with some elements deleted, the rest kept in order. */
  predicate Subsequence<T(==)>(a: seq<T>, b: seq<T>)
    decreases |b|
  {
    if a == [] then true
    else if b == [] then false
    else if a[0] == b[0] then Subsequence(a[1..], b[1..])
    else Subsequence(a, b[1..])
  }

  /** The candidates whose name is not among `present`, in candidate order:
      the ALTER TABLE statements the script issues. Every test is against the
      column list read before the first ALTER. */
  function MissingFrom(candidates: seq<Column>, present: seq<string>): (r: seq<Column>)
    ensures |r| <= |candidates|
  {
    if candidates == [] then []
    else if candidates[0].name in present then MissingFrom(candidates[1..], present)
    else [candidates[0]] + MissingFrom(candidates[1..], present)
  }

  /** A column is issued exactly when it is a candidate whose name is not
      present. */
  lemma {:induction false} MissingFromMembers(candidates: seq<Column>, present: seq<string>)
    ensures forall c :: c in MissingFrom(candidates, present) <==> c in candidates && c.name !in present
  {
    if candidates != [] {
      MissingFromMembers(candidates[1..], present);
      assert candidates == [candidates[0]] + candidates[1..];
    }
  }

  /** The missing columns come out in the order they are tried. */
  lemma {:induction false} MissingFromKeepsOrder(candidates: seq<Column>, present: seq<string>)
    ensures Subsequence(MissingFrom(candidates, present), candidates)
  {
    if candidates != [] {
      MissingFromKeepsOrder(candidates[1..], present);
      MissingFromMembers(candidates[1..], present);
      var rest := MissingFrom(candidates[1..], present);
      if candidates[0].name in present {
        if rest != [] {
          assert rest[0] in rest;
          assert rest[0] != candidates[0];
        }
      } else {
        var r := [candidates[0]] + rest;
        assert r[0] == candidates[0] && r[1..] == rest;
      }
    }
  }

  /** Filtering candidates with distinct names yields distinct names. */
  lemma {:induction false} MissingFromDistinct(candidates: seq<Column>, present: seq<string>)
    requires NamesDistinct(candidates)
    ensures NamesDistinct(MissingFrom(candidates, present))
  {
    if candidates != [] {
      assert NamesDistinct(candidates[1..]);
      MissingFromDistinct(candidates[1..], present);
      MissingFromMembers(candidates[1..], present);
      if candidates[0].name !in present {
        var rest := MissingFrom(candidates[1..], present);
        var r := [candidates[0]] + rest;
        forall j | 1 <= j < |r|
          ensures r[0].name != r[j].name
        {
          assert r[j] in rest;
          assert r[j] in candidates[1..];
          var k :| 0 <= k < |candidates[1..]| && candidates[1..][k] == r[j];
          assert candidates[k + 1] == r[j];
        }
      }
    }
  }

  /** When every candidate is already present, nothing is issued. */
  lemma {:induction false} MissingFromNothingMissing(candidates: seq<Column>, present: seq<string>)
    requires forall c :: c in candidates ==> c.name in present
    ensures MissingFrom(candidates, present) == []
  {
    if candidates != [] {
      assert candidates[0] in candidates;
      MissingFromNothingMissing(candidates[1..], present);
    }
  }

  /** When no candidate is present, every one is issued. */
  lemma {:induction false} MissingFromAllMissing(candidates: seq<Column>, present: seq<string>)
    requires forall c :: c in candidates ==> c.name !in present
    ensures MissingFrom(candidates, present) == candidates
  {
    if candidates != [] {
      assert candidates[0] in candidates;
      MissingFromAllMissing(candidates[1..], present);
    }
  }

  /** A migration over a column list: append every missing addition. */
  function AddMissingColumns(cols: seq<Column>): (r: seq<Column>)
    // pre-existing columns stay, in their original positions
    ensures cols <= r
    // everything appended is one of the additions, and was missing
    ensures forall c :: c in r[|cols|..] <==> c in Additions && c.name !in Names(cols)
  {
    var missing := MissingFrom(Additions, Names(cols));
    MissingFromMembers(Additions, Names(cols));
    assert (cols + missing)[|cols|..] == missing;
    cols + missing
  }

  lemma AdditionsDistinct()
    ensures NamesDistinct(Additions)
  {
  }

  /** After migrating, all five added columns are present. */
  lemma {:induction false} MigrationAddsEveryColumn(cols: seq<Column>)
    ensures forall c :: c in Additions ==> c.name in Names(AddMissingColumns(cols))
  {
    var missing := MissingFrom(Additions, Names(cols));
    MissingFromMembers(Additions, Names(cols));
    NamesAppend(cols, missing);
    forall c | c in Additions
      ensures c.name in Names(AddMissingColumns(cols))
    {
      if c.name !in Names(cols) {
        NameInNames(missing, c);
      }
    }
  }

  /** The missing columns are appended in the fixed order memory_limit,
      cpu_limit, disk_limit, app_type, auto_restart. */
  lemma MigrationAppendsInOrder(cols: seq<Column>)
    ensures Subsequence(AddMissingColumns(cols)[|cols|..], Additions)
  {
    var r := AddMissingColumns(cols);
    assert r[|cols|..] == MissingFrom(Additions, Names(cols));
    MissingFromKeepsOrder(Additions, Names(cols));
  }

  /** A column already present is never added again: a column list without
      duplicate names keeps that property. */
  lemma {:induction false} MigrationKeepsNamesDistinct(cols: seq<Column>)
    requires NamesDistinct(cols)
    ensures NamesDistinct(AddMissingColumns(cols))
  {
    var missing := MissingFrom(Additions, Names(cols));
    var r := cols + missing;
    AdditionsDistinct();
    MissingFromDistinct(Additions, Names(cols));
    MissingFromMembers(Additions, Names(cols));
    forall i, j | 0 <= i < j < |r|
      ensures r[i].name != r[j].name
    {
      if i < |cols| && j >= |cols| {
        assert r[j] in missing;
        assert Names(cols)[i] == r[i].name;
      } else if i >= |cols| {
        assert r[i] == missing[i - |cols|] && r[j] == missing[j - |cols|];
      }
    }
  }

  /** Migrating an already-migrated column list changes nothing. */
  lemma {:induction false} MigrationIdempotent(cols: seq<Column>)
    ensures AddMissingColumns(AddMissingColumns(cols)) == AddMissingColumns(cols)
  {
    var once := AddMissingColumns(cols);
    MigrationAddsEveryColumn(cols);
    MissingFromNothingMissing(Additions, Names(once));
  }

  /** The defaults the migration declares are the model's column defaults;
      `app_type` has none in either. */
  lemma MigrationDefaultsMatchModel()
    ensures MemoryLimitColumn.default == Some(Models.DefaultMemoryLimit)
    ensures CpuLimitColumn.default == Some(Models.DefaultCpuLimit)
    ensures DiskLimitColumn.default == Some(Models.DefaultDiskLimit)
    ensures AutoRestartColumn.default == Some(if Models.DefaultAutoRestart then 1 else 0)
    ensures AppTypeColumn.default.None?
  {
  }

  /** The names the script adds are lower case, so no two of the columns it
      issues are the same identifier either. */
  lemma {:induction false} IssuedFoldedDistinct(present: seq<string>)
    ensures FoldedDistinct(MissingFrom(Additions, present))
  {
    var issued := MissingFrom(Additions, present);
    AdditionsDistinct();
    MissingFromDistinct(Additions, present);
    MissingFromMembers(Additions, present);
    forall c | c in Additions
      ensures Fold(c.name) == c.name
    {
      assert LowerCase(c.name);
      FoldLowerCase(c.name);
    }
    forall i, j | 0 <= i < j < |issued|
      ensures Fold(issued[i].name) != Fold(issued[j].name)
    {
      assert issued[i] in issued && issued[j] in issued;
    }
  }

  /** Only the candidates' own names matter to the filter. */
  lemma {:induction false} MissingFromSamePresence(candidates: seq<Column>, p: seq<string>, q: seq<string>)
    requires forall c :: c in candidates ==> (c.name in p <==> c.name in q)
    ensures MissingFrom(candidates, p) == MissingFrom(candidates, q)
  {
    if candidates != [] {
      assert candidates[0] in candidates;
      MissingFromSamePresence(candidates[1..], p, q);
    }
  }

  /** In a list of distinct names, the head's name is not among the tail's. */
  lemma HeadNameUnique(candidates: seq<Column>)
    requires candidates != [] && NamesDistinct(candidates)
    ensures NamesDistinct(candidates[1..])
    ensures forall d :: d in candidates[1..] ==> d.name != candidates[0].name
  {
    forall d | d in candidates[1..]
      ensures d.name != candidates[0].name
    {
      var m :| 0 <= m < |candidates[1..]| && candidates[1..][m] == d;
      assert candidates[m + 1] == d;
    }
  }

  /** The step of `MissingFromAfterPrefix` when the head was present: it is
      skipped both times. */
  lemma AfterPrefixPresentHead(candidates: seq<Column>, present: seq<string>, k: nat)
    requires candidates != [] && candidates[0].name in present
    requires k <= |MissingFrom(candidates[1..], present)|
    requires var rest := MissingFrom(candidates[1..], present);
             MissingFrom(candidates[1..], present + Names(rest[..k])) == rest[k..]
    ensures k <= |MissingFrom(candidates, present)|
    ensures var missing := MissingFrom(candidates, present);
            MissingFrom(candidates, present + Names(missing[..k])) == missing[k..]
  {
    var rest := MissingFrom(candidates[1..], present);
    assert MissingFrom(candidates, present) == rest;
    var grown := present + Names(rest[..k]);
    assert candidates[0].name in grown;
  }

  /** Adding a name that no candidate carries does not change what the
      filter issues. */
  lemma MissingFromIgnoresName(candidates: seq<Column>, present: seq<string>, n: string, more: seq<string>)
    requires forall d :: d in candidates ==> d.name != n
    ensures MissingFrom(candidates, present + [n] + more) == MissingFrom(candidates, present + more)
  {
    forall d | d in candidates
      ensures d.name in present + [n] + more <==> d.name in present + more
    {
    }
    MissingFromSamePresence(candidates, present + [n] + more, present + more);
  }

  /** Slicing a sequence with a known head. */
  lemma ConsSlices<T>(x: T, rest: seq<T>, k: nat)
    requires 0 < k <= |rest| + 1
    ensures ([x] + rest)[..k] == [x] + rest[..k - 1]
    ensures ([x] + rest)[k..] == rest[k - 1..]
  {
  }

  /** The filter keeps a head whose name is not present, and drops one whose
      name is. */
  lemma MissingFromHead(candidates: seq<Column>, present: seq<string>)
    requires candidates != []
    ensures candidates[0].name !in present ==>
              MissingFrom(candidates, present) == [candidates[0]] + MissingFrom(candidates[1..], present)
    ensures candidates[0].name in present ==>
              MissingFrom(candidates, present) == MissingFrom(candidates[1..], present)
  {
  }

  /** The step of `MissingFromAfterPrefix` when the head was missing and is
      among the first k added: it is now present, and no other candidate
      shares its name. */
  lemma AfterPrefixMissingHead(candidates: seq<Column>, present: seq<string>, k: nat)
    requires candidates != [] && NamesDistinct(candidates) && candidates[0].name !in present
    requires 0 < k <= |MissingFrom(candidates, present)|
    requires var rest := MissingFrom(candidates[1..], present);
             k - 1 <= |rest|
             && MissingFrom(candidates[1..], present + Names(rest[..k - 1])) == rest[k - 1..]
    ensures var missing := MissingFrom(candidates, present);
            MissingFrom(candidates, present + Names(missing[..k])) == missing[k..]
  {
    var c := candidates[0];
    var tail := candidates[1..];
    var rest := MissingFrom(tail, present);
    var more := Names(rest[..k - 1]);
    MissingFromHead(candidates, present);
    ConsSlices(c, rest, k);
    GrownNames(present, c, rest, k);
    MissingFromHead(candidates, present + [c.name] + more);
    HeadNameUnique(candidates);
    MissingFromIgnoresName(tail, present, c.name, more);
  }

  /** The names present once a missing head and the k - 1 columns after it
      have been added. */
  lemma GrownNames(present: seq<string>, c: Column, rest: seq<Column>, k: nat)
    requires 0 < k <= |rest| + 1
    ensures present + Names(([c] + rest)[..k]) == present + [c.name] + Names(rest[..k - 1])
    ensures c.name in present + [c.name] + Names(rest[..k - 1])
  {
    ConsSlices(c, rest, k);
    NamesAppend([c], rest[..k - 1]);
    assert Names([c]) == [c.name];
    assert (present + [c.name] + Names(rest[..k - 1]))[|present|] == c.name;
  }

  /** Once the first k missing columns have been added, the filter issues
      exactly the remaining ones. */
  lemma {:induction false} MissingFromAfterPrefix(candidates: seq<Column>, present: seq<string>, k: nat)
    requires NamesDistinct(candidates)
    requires k <= |MissingFrom(candidates, present)|
    ensures var missing := MissingFrom(candidates, present);
            MissingFrom(candidates, present + Names(missing[..k])) == missing[k..]
  {
    var missing := MissingFrom(candidates, present);
    if k == 0 {
      assert missing[..0] == [];
      assert present + Names(missing[..0]) == present;
    } else {
      HeadNameUnique(candidates);
      if candidates[0].name in present {
        MissingFromAfterPrefix(candidates[1..], present, k);
        AfterPrefixPresentHead(candidates, present, k);
      } else {
        MissingFromAfterPrefix(candidates[1..], present, k - 1);
        AfterPrefixMissingHead(candidates, present, k);
      }
    }
  }

  /** Adding a column adds exactly its name to the table's identifiers. */
  lemma HasColumnAppend(cols: seq<Column>, c: Column, name: string)
    ensures HasColumn(cols + [c], name) <==> HasColumn(cols, name) || SameIdentifier(c.name, name)
  {
    var grown := cols + [c];
    if HasColumn(cols, name) {
      var j :| 0 <= j < |cols| && SameIdentifier(cols[j].name, name);
      assert grown[j] == cols[j];
    }
    if SameIdentifier(c.name, name) {
      assert grown[|cols|] == c;
    }
    if HasColumn(grown, name) {
      var j :| 0 <= j < |grown| && SameIdentifier(grown[j].name, name);
      if j < |cols| {
        assert grown[j] == cols[j];
      }
    }
  }

  /** A column stays once added. */
  lemma HasColumnKept(cols: seq<Column>, c: Column)
    ensures forall name :: HasColumn(cols, name) ==> HasColumn(cols + [c], name)
  {
    forall name | HasColumn(cols, name)
      ensures HasColumn(cols + [c], name)
    {
      HasColumnAppend(cols, c, name);
    }
  }

  lemma FoldedDistinctTail(stmts: seq<Column>)
    requires stmts != [] && FoldedDistinct(stmts)
    ensures FoldedDistinct(stmts[1..])
    ensures forall j :: 1 <= j < |stmts| ==> Fold(stmts[0].name) != Fold(stmts[j].name)
  {
    forall i, j | 0 <= i < j < |stmts[1..]|
      ensures Fold(stmts[1..][i].name) != Fold(stmts[1..][j].name)
    {
      assert stmts[1..][i] == stmts[i + 1] && stmts[1..][j] == stmts[j + 1];
    }
  }

  /** The effect of running ADD COLUMN statements one after another: the
      columns afterwards, how many statements ran, and the statement SQLite
      refused, if any. */
  datatype AlterResult = AlterResult(columns: seq<Column>, applied: nat, rejected: Option<Column>)

  /** Each ADD COLUMN is refused when the table already has a column of that
      name ignoring case; the first refusal raises, so the later statements
      never run, while those before it stay. */
  function ApplyAlters(cols: seq<Column>, stmts: seq<Column>): (r: AlterResult)
    ensures r.applied <= |stmts|
    ensures r.columns == cols + stmts[..r.applied]
    ensures r.rejected.None? <==> r.applied == |stmts|
    ensures r.rejected.Some? ==>
              r.rejected.value == stmts[r.applied] && HasColumn(r.columns, stmts[r.applied].name)
    // every statement that ran found no column of its name in the table as
    // it stood when the statement ran
    ensures forall j :: 0 <= j < r.applied ==> !HasColumn(cols + stmts[..j], stmts[j].name)
    decreases |stmts|
  {
    if stmts == [] then AlterResult(cols, 0, None)
    else if HasColumn(cols, stmts[0].name) then AlterResult(cols, 0, Some(stmts[0]))
    else
      var rest := ApplyAlters(cols + [stmts[0]], stmts[1..]);
      assert stmts[..rest.applied + 1] == [stmts[0]] + stmts[1..][..rest.applied];
      AltersShift(cols, stmts);
      AlterResult(rest.columns, rest.applied + 1, rest.rejected)
  }

  /** The table before statement j, seen from the run that starts after the
      first statement. */
  lemma AltersShift(cols: seq<Column>, stmts: seq<Column>)
    requires stmts != []
    ensures stmts[..0] == []
    ensures forall j :: 0 < j < |stmts| ==>
              stmts[j] == stmts[1..][j - 1] && cols + stmts[..j] == (cols + [stmts[0]]) + stmts[1..][..j - 1]
  {
    forall j | 0 < j < |stmts|
      ensures cols + stmts[..j] == (cols + [stmts[0]]) + stmts[1..][..j - 1]
    {
      assert stmts[..j] == [stmts[0]] + stmts[1..][..j - 1];
    }
  }

  /** With no two statements naming the same identifier, a statement runs
      exactly when no original column has its name: the ones that ran lacked
      one, and the one refused had one. */
  lemma {:induction false} ApplyAltersStopsAtClash(cols: seq<Column>, stmts: seq<Column>)
    requires FoldedDistinct(stmts)
    ensures var r := ApplyAlters(cols, stmts);
            && (forall j :: 0 <= j < r.applied ==> !HasColumn(cols, stmts[j].name))
            && (r.applied < |stmts| ==> HasColumn(cols, stmts[r.applied].name))
    decreases |stmts|
  {
    if stmts != [] && !HasColumn(cols, stmts[0].name) {
      var c := stmts[0];
      var r := ApplyAlters(cols, stmts);
      var rest := ApplyAlters(cols + [c], stmts[1..]);
      assert r.applied == rest.applied + 1;
      FoldedDistinctTail(stmts);
      ApplyAltersStopsAtClash(cols + [c], stmts[1..]);
      HasColumnKept(cols, c);
      forall j | 0 <= j < r.applied
        ensures !HasColumn(cols, stmts[j].name)
      {
        if j > 0 {
          assert stmts[j] == stmts[1..][j - 1];
        }
      }
      if r.applied < |stmts| {
        assert stmts[r.applied] == stmts[1..][rest.applied];
        HasColumnAppend(cols, c, stmts[r.applied].name);
      }
    }
  }

  /** Running the issued statements against the table they were computed
      from: every statement that runs has a name the table lacked under any
      spelling. */
  lemma IssuedAltersRan(cols: seq<Column>)
    ensures var issued := MissingFrom(Additions, Names(cols));
            var alters := ApplyAlters(cols, issued);
            && cols <= alters.columns
            && alters.columns[|cols|..] <= issued
            && |alters.columns| - |cols| == alters.applied
            && (forall c :: c in alters.columns[|cols|..] ==> !HasColumn(cols, c.name))
  {
    var issued := MissingFrom(Additions, Names(cols));
    var alters := ApplyAlters(cols, issued);
    assert alters.columns[|cols|..] == issued[..alters.applied];
    IssuedAltersLackNames(cols);
  }

  /** The statements that ran each name a column the table lacked. */
  lemma IssuedAltersLackNames(cols: seq<Column>)
    ensures var issued := MissingFrom(Additions, Names(cols));
            var alters := ApplyAlters(cols, issued);
            forall c :: c in issued[..alters.applied] ==> !HasColumn(cols, c.name)
  {
    IssuedFoldedDistinct(Names(cols));
    AltersLackNames(cols, MissingFrom(Additions, Names(cols)));
  }

  /** Of statements naming distinct identifiers, each one that ran names a
      column the table lacked. */
  lemma AltersLackNames(cols: seq<Column>, stmts: seq<Column>)
    requires FoldedDistinct(stmts)
    ensures forall c :: c in stmts[..ApplyAlters(cols, stmts).applied] ==> !HasColumn(cols, c.name)
  {
    var ran := stmts[..ApplyAlters(cols, stmts).applied];
    ApplyAltersStopsAtClash(cols, stmts);
    forall c | c in ran
      ensures !HasColumn(cols, c.name)
    {
      var j :| 0 <= j < |ran| && ran[j] == c;
      assert stmts[j] == c;
    }
  }

  /** The issued statements all run exactly when none of their names is
      already in the table under another spelling; otherwise the one refused
      is such a name. */
  lemma IssuedAltersComplete(cols: seq<Column>)
    ensures var issued := MissingFrom(Additions, Names(cols));
            var alters := ApplyAlters(cols, issued);
            && ((forall c :: c in issued ==> !HasColumn(cols, c.name)) <==> alters.rejected.None?)
            && (alters.rejected.None? ==> alters.columns == cols + issued)
            && (alters.rejected.Some? ==> HasColumn(cols, issued[alters.applied].name))
  {
    IssuedFoldedDistinct(Names(cols));
    AltersComplete(cols, MissingFrom(Additions, Names(cols)));
  }

  /** Statements naming distinct identifiers all run exactly when none of
      them names a column the table has; otherwise the one refused does. */
  lemma AltersComplete(cols: seq<Column>, stmts: seq<Column>)
    requires FoldedDistinct(stmts)
    ensures var alters := ApplyAlters(cols, stmts);
            && ((forall c :: c in stmts ==> !HasColumn(cols, c.name)) <==> alters.rejected.None?)
            && (alters.rejected.None? ==> alters.columns == cols + stmts)
            && (alters.rejected.Some? ==> HasColumn(cols, stmts[alters.applied].name))
  {
    var alters := ApplyAlters(cols, stmts);
    ApplyAltersStopsAtClash(cols, stmts);
    if alters.rejected.Some? {
      assert stmts[alters.applied] in stmts;
    } else {
      assert stmts[..alters.applied] == stmts;
      forall c | c in stmts
        ensures !HasColumn(cols, c.name)
      {
        var j :| 0 <= j < |stmts| && stmts[j] == c;
      }
    }
  }

  /** Running a list of ADD COLUMN statements and reporting: the added names
      when all ran, SQLite's "duplicate column name" error otherwise. */
  function RunStatements(cols: seq<Column>, stmts: seq<Column>): (r: TableMigration)
    ensures cols <= r.columns
  {
    var alters := ApplyAlters(cols, stmts);
    if alters.rejected.None? then TableMigration(alters.columns, Completed(Names(stmts)))
    else TableMigration(alters.columns, Failed("duplicate column name: " + alters.rejected.value.name))
  }

  /** Of statements naming distinct identifiers, a failed run stopped at one
      naming a column the table already had. */
  lemma RunStatementsFailedAt(cols: seq<Column>, stmts: seq<Column>)
    requires FoldedDistinct(stmts)
    ensures var r := RunStatements(cols, stmts);
            r.outcome.Failed? ==>
              var ran := |r.columns| - |cols|;
              0 <= ran < |stmts| && HasColumn(cols, stmts[ran].name)
  {
    var alters := ApplyAlters(cols, stmts);
    var r := RunStatements(cols, stmts);
    if r.outcome.Failed? {
      assert alters.rejected.Some? && r.columns == alters.columns;
      assert |r.columns| - |cols| == alters.applied < |stmts|;
      AltersComplete(cols, stmts);
    }
  }

  /** The ALTERs the script issues against an existing `application` table
      with columns `cols`. They run in order until SQLite refuses one as a
      duplicate column; the error is reported and the statements before it
      stay. */
  function MigrateColumns(cols: seq<Column>): (r: TableMigration)
    ensures cols <= r.columns
  {
    RunStatements(cols, MissingFrom(Additions, Names(cols)))
  }

  /** The statements that ran are the issued ones up to the first refusal,
      appended in order, each with a name the table lacked under any
      spelling. */
  lemma MigrateColumnsRuns(cols: seq<Column>)
    ensures var issued := MissingFrom(Additions, Names(cols));
            var r := MigrateColumns(cols);
            && r.columns[|cols|..] <= issued
            && (forall c :: c in r.columns[|cols|..] ==> !HasColumn(cols, c.name))
  {
    IssuedAltersRan(cols);
  }

  /** The pass completes exactly when no issued column is already in the
      table under another spelling. */
  lemma MigrateColumnsCompletesIff(cols: seq<Column>)
    ensures var issued := MissingFrom(Additions, Names(cols));
            MigrateColumns(cols).outcome.Completed? <==> forall c :: c in issued ==> !HasColumn(cols, c.name)
  {
    IssuedAltersComplete(cols);
  }

  /** A completed pass leaves the migrated column list and reports the
      appended columns. */
  lemma MigrateColumnsCompletedResult(cols: seq<Column>)
    ensures var r := MigrateColumns(cols);
            r.outcome.Completed? ==>
              r.columns == AddMissingColumns(cols)
              && r.outcome.added == Names(MissingFrom(Additions, Names(cols)))
  {
    IssuedAltersComplete(cols);
  }

  /** A failed pass stopped at an issued column the table already had. */
  lemma MigrateColumnsFailedAt(cols: seq<Column>)
    ensures var issued := MissingFrom(Additions, Names(cols));
            var r := MigrateColumns(cols);
            r.outcome.Failed? ==>
              var ran := |r.columns| - |cols|;
              0 <= ran < |issued| && HasColumn(cols, issued[ran].name)
  {
    var issued := MissingFrom(Additions, Names(cols));
    IssuedFoldedDistinct(Names(cols));
    RunStatementsFailedAt(cols, issued);
    assert MigrateColumns(cols) == RunStatements(cols, issued);
  }

  /** The pass completes exactly when no issued column is already in the
      table under another spelling, and then the table holds the migrated
      column list and the report names the appended columns. A failed pass
      stopped at an issued column the table already had. */
  lemma MigrateColumnsCompletes(cols: seq<Column>)
    ensures var issued := MissingFrom(Additions, Names(cols));
            var r := MigrateColumns(cols);
            && (r.outcome.Completed? <==> forall c :: c in issued ==> !HasColumn(cols, c.name))
            && (r.outcome.Completed? ==> r.columns == AddMissingColumns(cols) && r.outcome.added == Names(issued))
            && (r.outcome.Failed? ==>
                  var ran := |r.columns| - |cols|;
                  0 <= ran < |issued| && HasColumn(cols, issued[ran].name))
  {
    MigrateColumnsCompletesIff(cols);
    MigrateColumnsCompletedResult(cols);
    MigrateColumnsFailedAt(cols);
  }

  /** A second pass over the table the first pass left changes nothing: a
      completed pass is followed by one issuing no statement, a failed one by
      one refused at its first statement. */
  lemma {:induction false} MigrateColumnsIdempotent(cols: seq<Column>)
    ensures var once := MigrateColumns(cols);
            var twice := MigrateColumns(once.columns);
            && twice.columns == once.columns
            && (once.outcome.Completed? ==> twice.outcome == Completed([]))
            && (once.outcome.Failed? ==> twice.outcome.Failed?)
  {
    var once := MigrateColumns(cols);
    MigrateColumnsRuns(cols);
    MigrateColumnsCompletes(cols);
    IssuedAltersRan(cols);
    var issued := MissingFrom(Additions, Names(cols));
    var now := once.columns;
    var k := |now| - |cols|;
    assert now == cols + issued[..k];
    NamesAppend(cols, issued[..k]);
    AdditionsDistinct();
    MissingFromAfterPrefix(Additions, Names(cols), k);
    var again := MissingFrom(Additions, Names(now));
    assert again == issued[k..];
    IssuedFoldedDistinct(Names(now));
    if once.outcome.Failed? {
      assert again != [] && again[0] == issued[k];
      var clash :| 0 <= clash < |cols| && SameIdentifier(cols[clash].name, issued[k].name);
      assert now[clash] == cols[clash];
      assert HasColumn(now, again[0].name);
    } else {
      assert k == |issued|;
      assert again == [];
    }
  }

  // ---------------------------------------------------------------------
  // The script

  /** `backup_db`: when the database file exists, write a byte-for-byte copy
      of it to the backup path (replacing any earlier backup); otherwise
      write nothing. */
  function BackupDb(files: Files): (r: Files)
    ensures DbPath in files ==> BackupPath in r && r[BackupPath] == files[DbPath]
    ensures DbPath !in files ==> r == files
    ensures forall p :: p != BackupPath ==> (p in r <==> p in files)
    ensures forall p :: p != BackupPath && p in r ==> r[p] == files[p]
  {
    if DbPath in files then files[BackupPath := files[DbPath]] else files
  }

  /** What the ALTER statements do to an existing `application` table. */
  datatype TableMigration = TableMigration(columns: seq<Column>, outcome: MigrationOutcome)

  /** What the open connection does to the database. */
  datatype ImageMigration = ImageMigration(image: DbImage, outcome: MigrationOutcome)

  /** The statements of `migrate_database` on an open database. table_info
      of a missing `application` table lists no columns, so the first ALTER
      fails with "no such table" and nothing changes; otherwise the table
      gets the ALTER pass. */
  function MigrateImage(db: DbImage): (r: ImageMigration)
    ensures var t := FindTable(db.tables, Models.ApplicationTable);
            // row data, table names and every other table are left alone
            && r.image.rowData == db.rowData
            && |r.image.tables| == |db.tables|
            && (forall i :: 0 <= i < |db.tables| ==> r.image.tables[i].name == db.tables[i].name)
            && (forall i :: 0 <= i < |db.tables| && i != t ==> r.image.tables[i] == db.tables[i])
            // without an application table the run fails and changes nothing
            && (t == |db.tables| ==> r.outcome.Failed? && r.image == db)
            // with one, its columns and the report are those of the ALTER pass
            && (t < |db.tables| ==>
                  var pass := MigrateColumns(db.tables[t].columns);
                  r.image.tables[t].columns == pass.columns && r.outcome == pass.outcome)
  {
    var t := FindTable(db.tables, Models.ApplicationTable);
    if t == |db.tables| then
      ImageMigration(db, Failed("no such table: application"))
    else
      var pass := MigrateColumns(db.tables[t].columns);
      ImageMigration(db.(tables := db.tables[t := db.tables[t].(columns := pass.columns)]), pass.outcome)
  }

  /** A second pass over the database the first pass left changes nothing;
      a completed pass is followed by one that adds nothing, a failed one by
      one that fails again. */
  lemma MigrateImageIdempotent(db: DbImage)
    ensures var once := MigrateImage(db);
            var twice := MigrateImage(once.image);
            && twice.image == once.image
            && (once.outcome.Completed? ==> twice.outcome == Completed([]))
            && (once.outcome.Failed? ==> twice.outcome.Failed?)
  {
    var once := MigrateImage(db);
    var after := once.image;
    FindTableByNames(db.tables, after.tables, Models.ApplicationTable);
    var t := FindTable(db.tables, Models.ApplicationTable);
    if t < |db.tables| {
      var cols := after.tables[t].columns;
      assert cols == MigrateColumns(db.tables[t].columns).columns;
      MigrateColumnsIdempotent(db.tables[t].columns);
      ReplaceSameColumns(after, t, MigrateColumns(cols).columns);
    }
  }

  /** Giving a table the columns it already has changes nothing. */
  lemma ReplaceSameColumns(db: DbImage, t: nat, cols: seq<Column>)
    requires t < |db.tables| && db.tables[t].columns == cols
    ensures db.(tables := db.tables[t := db.tables[t].(columns := cols)]) == db
  {
    assert db.tables[t].(columns := cols) == db.tables[t];
    assert db.tables[t := db.tables[t]] == db.tables;
  }

  /** `Memory_limit` and `memory_limit` name the same column. */
  lemma MemoryLimitSpellings()
    ensures SameIdentifier("Memory_limit", MemoryLimitColumn.name)
  {
    assert "Memory_limit" == ['M'] + "emory_limit";
    assert MemoryLimitColumn.name == ['m'] + "emory_limit";
    FoldCons('M', "emory_limit");
    FoldCons('m', "emory_limit");
  }

  /** Names match ignoring case: a table declared as `Application` is the
      script's table, and an existing `Memory_limit` column is not in the
      script's exact-match list, so `memory_limit` is issued and refused as a
      duplicate. The run fails and the table is unchanged. */
  lemma MixedCaseNames()
    ensures var cols := [Column("id", "INTEGER", None), Column("Memory_limit", "INTEGER", None)];
            var db := DbImage([Table("Application", cols)], []);
            var r := MigrateImage(db);
            r.outcome == Failed("duplicate column name: " + MemoryLimitColumn.name) && r.image == db
  {
    var cols := [Column("id", "INTEGER", None), Column("Memory_limit", "INTEGER", None)];
    var db := DbImage([Table("Application", cols)], []);
    assert Fold("Application") == Models.ApplicationTable;
    assert FindTable(db.tables, Models.ApplicationTable) == 0;
    assert Names(cols) == ["id", "Memory_limit"];
    assert "memory_limit"[0] != "Memory_limit"[0];
    MissingFromAllMissing(Additions, Names(cols));
    MemoryLimitSpellings();
    assert SameIdentifier(cols[1].name, MemoryLimitColumn.name);
    assert ApplyAlters(cols, Additions) == AlterResult(cols, 0, Some(MemoryLimitColumn));
    var failure := Failed("duplicate column name: " + MemoryLimitColumn.name);
    assert MigrateColumns(cols) == TableMigration(cols, failure);
    ReplaceSameColumns(db, 0, cols);
    assert MigrateImage(db) == ImageMigration(db, failure);
  }

  /** `migrate_database`: back up the file, connect (which creates an empty
      database when the file is missing), run the statements, and report. A
      failure is printed and swallowed. */
  function MigrateDatabase(files: Files): (r: MigrationRun)
    // the backup is the database as it was before any column was altered
    ensures DbPath in files ==> BackupPath in r.files && r.files[BackupPath] == files[DbPath]
    // with no database file, no backup is written
    ensures DbPath !in files ==>
              (BackupPath in r.files <==> BackupPath in files)
              && (BackupPath in files ==> r.files[BackupPath] == files[BackupPath])
    // no other file is touched
    ensures forall p :: p != DbPath && p != BackupPath ==>
              (p in r.files <==> p in files) && (p in files ==> r.files[p] == files[p])
    // the database file holds what the statements made of the old content,
    // or of an empty database
    ensures var before := if DbPath in files then files[DbPath] else EmptyDatabase;
            && DbPath in r.files
            && r.files[DbPath] == MigrateImage(before).image
            && r.outcome == MigrateImage(before).outcome
  {
    var backedUp := BackupDb(files);
    var db := if DbPath in backedUp then backedUp[DbPath] else EmptyDatabase;
    var connected := backedUp[DbPath := db];
    var m := MigrateImage(db);
    MigrationRun(connected[DbPath := m.image], m.outcome)
  }

  /** Running the script a second time, whatever the first run did, leaves
      the database as the first run left it: a completed migration reports
      nothing added, a failed one fails again. The backup the second run
      writes is a copy of the database the first run left. */
  lemma MigrateDatabaseIdempotent(files: Files)
    ensures var once := MigrateDatabase(files);
            var twice := MigrateDatabase(once.files);
            && twice.files[DbPath] == once.files[DbPath]
            && twice.files[BackupPath] == once.files[DbPath]
            && (once.outcome.Completed? ==> twice.outcome == Completed([]))
            && (once.outcome.Failed? ==> twice.outcome.Failed?)
  {
    var before := if DbPath in files then files[DbPath] else EmptyDatabase;
    MigrateImageIdempotent(before);
  }
}

=== FILE: models.dfy ===
/** The persistent entity store declared in models.py: five record types, the
    column defaults applied when a record is first committed, and the
    constraints the schema declares (NOT NULL, UNIQUE, FOREIGN KEY).

    A record value is the mapped object as the program sees it: every column
    is an `Option`, `None` standing for NULL or for an attribute the caller
    never set. The store maps each table's integer primary key to the
    committed record. Inserting is `session.add` followed by `commit`: column
    defaults are filled in, then the declared constraints are checked, and a
    violation leaves the store exactly as it was. */
module Models {
  import opened Wrappers
  import opened Passwords

  /** Integer primary key. */
  type Id = int

  /** A UTC instant; the clock is a parameter of every operation that reads it. */
  type Timestamp = int

  // Column defaults declared in models.py.
  const DefaultApplicationStatus: string := "stopped"
  const DefaultMemoryLimit: int := 256      // MB
  const DefaultCpuLimit: int := 50          // percent
  const DefaultDiskLimit: int := 1024       // MB
  const DefaultAutoRestart: bool := true
  const DefaultDomainActive: bool := true
  const DefaultSslEnabled: bool := false
  const DefaultBackupStatus: string := "completed"

  // The range of an INTEGER column: SQLite stores signed 64-bit values, and
  // the driver refuses to bind a wider Python int.
  const MinInteger: int := -0x8000_0000_0000_0000
  const MaxInteger: int := 0x7FFF_FFFF_FFFF_FFFF

  // Table names as the mapper derives them from the class names.
  const UserTable: string := "user"
  const ApplicationTable: string := "application"
  const DomainConfigTable: string := "domain_config"
  const BackupTable: string := "backup"
  const DeploymentLogTable: string := "deployment_log"

  datatype User = User(
    username: Option<string>,        // unique, not null
    email: Option<string>,           // unique, not null
    passwordHash: Option<string>,    // not null
    createdAt: Option<Timestamp>)    // defaults to the commit time

  datatype Application = Application(
    name: Option<string>,            // not null
    replitUrl: Option<string>,       // not null
    description: Option<string>,
    status: Option<string>,          // defaults to "stopped"
    port: Option<int>,
    installPath: Option<string>,
    createdAt: Option<Timestamp>,    // defaults to the commit time
    lastDeployed: Option<Timestamp>,
    memoryLimit: Option<int>,        // defaults to 256
    cpuLimit: Option<int>,           // defaults to 50
    diskLimit: Option<int>,          // defaults to 1024
    appType: Option<string>,
    autoRestart: Option<bool>,       // defaults to true
    userId: Option<Id>)              // not null, references user

  datatype DomainConfig = DomainConfig(
    domainName: Option<string>,      // not null
    isActive: Option<bool>,          // defaults to true
    sslEnabled: Option<bool>,        // defaults to false
    sslCertPath: Option<string>,
    sslKeyPath: Option<string>,
    sslExpiry: Option<Timestamp>,
    ddnsProvider: Option<string>,
    ddnsToken: Option<string>,
    ddnsUsername: Option<string>,
    ddnsPassword: Option<string>,
    ddnsLastUpdated: Option<Timestamp>,
    createdAt: Option<Timestamp>,    // defaults to the commit time
    applicationId: Option<Id>)       // not null, references application

  datatype Backup = Backup(
    backupPath: Option<string>,      // not null
    backupSize: Option<int>,
    createdAt: Option<Timestamp>,    // defaults to the commit time
    description: Option<string>,
    status: Option<string>,          // defaults to "completed"
    applicationId: Option<Id>)       // not null, references application

  datatype DeploymentLog = DeploymentLog(
    action: Option<string>,          // not null
    status: Option<string>,          // not null
    message: Option<string>,
    timestamp: Option<Timestamp>,    // defaults to the commit time
    userId: Option<Id>,              // not null, references user
    applicationId: Option<Id>)       // not null, references application

  /** The database: one id-keyed map per table. */
  datatype Store = Store(
    users: map<Id, User>,
    applications: map<Id, Application>,
    domainConfigs: map<Id, DomainConfig>,
    backups: map<Id, Backup>,
    logs: map<Id, DeploymentLog>)

  const EmptyStore: Store := Store(map[], map[], map[], map[], map[])

  /** The constraint a refused write violated, or the row it could not find. */
  datatype DbError =
    | NotNullViolation(table: string, column: string)
    | UniqueViolation(table: string, column: string)
    | ForeignKeyViolation(table: string, column: string)
    | OutOfRange(table: string, column: string)
    | NotFound(table: string, id: Id)

  /** A committed write: the store afterwards and the id of the written row,
      or the store untouched and the reason the write was refused. */
  datatype Write = Write(store: Store, result: Result<Id, DbError>)

  // ---------------------------------------------------------------------
  // Store invariants

  /** A non-empty set of keys has a member. */
  lemma HasMember(keys: set<Id>)
    requires keys != {}
    ensures exists k :: k in keys
  {
    if forall k :: k !in keys {
      assert false;
    }
  }

  /** A non-empty set of keys has a largest member. */
  lemma {:induction false} LargestKeyExists(keys: set<Id>)
    requires keys != {}
    ensures exists top :: top in keys && forall k :: k in keys ==> k <= top
  {
    HasMember(keys);
    var x :| x in keys;
    var rest := keys - {x};
    if keys == {x} {
      assert forall k :: k in keys ==> k <= x;
    } else {
      LargestKeyExists(rest);
      var top :| top in rest && forall k :: k in rest ==> k <= top;
      var larger := if x <= top then top else x;
      forall k | k in keys
        ensures k <= larger
      {
        if k != x {
          assert k in rest;
        }
      }
      assert larger in keys;
    }
  }

  /** The key SQLite gives the next row of a table with an INTEGER PRIMARY
      KEY: one more than the largest key in use, or 1 for an empty table. */
  function NextId<T>(m: map<Id, T>): (id: Id)
    ensures id !in m
    ensures forall k :: k in m ==> k < id
    ensures m == map[] ==> id == 1
    ensures m != map[] ==> id - 1 in m
  {
    if m == map[] then 1
    else
      assert m.Keys != {};
      LargestKeyExists(m.Keys);
      var top :| top in m && forall k :: k in m ==> k <= top;
      top + 1
  }

  /** A foreign-key column holds the key of an existing row of `parent`. */
  predicate Refers<T>(fk: Option<Id>, parent: map<Id, T>) {
    fk.Some? && fk.value in parent
  }

  predicate UsernameTaken(s: Store, name: string) {
    exists id :: id in s.users && s.users[id].username == Some(name)
  }

  predicate EmailTaken(s: Store, email: string) {
    exists id :: id in s.users && s.users[id].email == Some(email)
  }

  ghost predicate UniqueUsernames(users: map<Id, User>) {
    forall i, j :: i in users && j in users && users[i].username == users[j].username ==> i == j
  }

  ghost predicate UniqueEmails(users: map<Id, User>) {
    forall i, j :: i in users && j in users && users[i].email == users[j].email ==> i == j
  }

  /** Every NOT NULL column of every committed row holds a value. */
  ghost predicate RequiredPresent(s: Store) {
    && (forall id :: id in s.users ==>
          s.users[id].username.Some? && s.users[id].email.Some? && s.users[id].passwordHash.Some?)
    && (forall id :: id in s.applications ==>
          s.applications[id].name.Some? && s.applications[id].replitUrl.Some?)
    && (forall id :: id in s.domainConfigs ==> s.domainConfigs[id].domainName.Some?)
    && (forall id :: id in s.backups ==> s.backups[id].backupPath.Some?)
    && (forall id :: id in s.logs ==> s.logs[id].action.Some? && s.logs[id].status.Some?)
  }

  /** An INTEGER column holds NULL or a value of the column's range. */
  predicate FitsInteger(v: Option<int>) {
    v.None? || MinInteger <= v.value <= MaxInteger
  }

  /** Every non-key INTEGER column of every committed row is in range. */
  ghost predicate IntegersFit(s: Store) {
    && (forall id :: id in s.applications ==>
          var a := s.applications[id];
          FitsInteger(a.port) && FitsInteger(a.memoryLimit) && FitsInteger(a.cpuLimit)
          && FitsInteger(a.diskLimit))
    && (forall id :: id in s.backups ==> FitsInteger(s.backups[id].backupSize))
  }

  /** Every foreign key names an existing parent row (which also makes every
      NOT NULL foreign-key column hold a value). */
  ghost predicate ReferencesResolve(s: Store) {
    && (forall id :: id in s.applications ==> Refers(s.applications[id].userId, s.users))
    && (forall id :: id in s.domainConfigs ==> Refers(s.domainConfigs[id].applicationId, s.applications))
    && (forall id :: id in s.backups ==> Refers(s.backups[id].applicationId, s.applications))
    && (forall id :: id in s.logs ==>
          Refers(s.logs[id].userId, s.users) && Refers(s.logs[id].applicationId, s.applications))
  }

  /** The state the database's declared constraints keep it in. */
  ghost predicate Valid(s: Store) {
    && UniqueUsernames(s.users) && UniqueEmails(s.users)
    && RequiredPresent(s)
    && IntegersFit(s)
    && ReferencesResolve(s)
  }

  lemma EmptyStoreValid()
    ensures Valid(EmptyStore)
  {
  }

  // ---------------------------------------------------------------------
  // "Nothing else changes": t is s plus exactly one new row in one table.

  ghost predicate AddsUser(s: Store, t: Store, id: Id) {
    id !in s.users && id in t.users && t.users == s.users[id := t.users[id]] && t.(users := s.users) == s
  }

  ghost predicate AddsApplication(s: Store, t: Store, id: Id) {
    && id !in s.applications && id in t.applications
    && t.applications == s.applications[id := t.applications[id]]
    && t.(applications := s.applications) == s
  }

  ghost predicate AddsDomainConfig(s: Store, t: Store, id: Id) {
    && id !in s.domainConfigs && id in t.domainConfigs
    && t.domainConfigs == s.domainConfigs[id := t.domainConfigs[id]]
    && t.(domainConfigs := s.domainConfigs) == s
  }

  ghost predicate AddsBackup(s: Store, t: Store, id: Id) {
    && id !in s.backups && id in t.backups
    && t.backups == s.backups[id := t.backups[id]]
    && t.(backups := s.backups) == s
  }

  ghost predicate AddsLog(s: Store, t: Store, id: Id) {
    && id !in s.logs && id in t.logs && t.logs == s.logs[id := t.logs[id]] && t.(logs := s.logs) == s
  }

  // ---------------------------------------------------------------------
  // User

  /** `User.set_password`: store the hasher's output for `password`, never the
      password itself; no other column changes. */
  function SetPassword(u: User, h: Hasher, password: string, salt: string): (r: User)
    ensures r.passwordHash == Some(h.generate(password, salt))
    ensures r.username == u.username && r.email == u.email && r.createdAt == u.createdAt
  {
    u.(passwordHash := Some(h.generate(password, salt)))
  }

  /** `User.check_password`: verify a candidate against the stored hash.
      The hash library raises on a user that has no hash yet; that outcome
      is `None`. */
  function CheckPassword(u: User, h: Hasher, password: string): (r: Option<bool>)
    ensures r.None? <==> u.passwordHash.None?
    ensures r.Some? ==> r.value == h.check(u.passwordHash.value, password)
  {
    if u.passwordHash.None? then None else Some(h.check(u.passwordHash.value, password))
  }

  /** Checking the password just set succeeds, whatever salt was drawn. */
  lemma CheckAfterSetPassword(u: User, h: Hasher, password: string, salt: string)
    requires Sound(h)
    ensures CheckPassword(SetPassword(u, h, password, salt), h, password) == Some(true)
  {
  }

  /** `password_hash` is NOT NULL, so checking a password against a committed
      user never raises. */
  lemma CommittedUserCheckable(s: Store, id: Id, h: Hasher, password: string)
    requires Valid(s) && id in s.users
    ensures CheckPassword(s.users[id], h, password).Some?
  {
  }

  /** The row committed for a new user: `created_at` filled in. */
  function UserWithDefaults(u: User, now: Timestamp): User {
    u.(createdAt := Some(u.createdAt.GetOr(now)))
  }

  /** Every constraint a new user row would violate. */
  ghost function UserViolations(s: Store, u: User): set<DbError> {
    (if u.username.None? then {NotNullViolation(UserTable, "username")}
     else if UsernameTaken(s, u.username.value) then {UniqueViolation(UserTable, "username")}
     else {})
    + (if u.email.None? then {NotNullViolation(UserTable, "email")}
       else if EmailTaken(s, u.email.value) then {UniqueViolation(UserTable, "email")}
       else {})
    + (if u.passwordHash.None? then {NotNullViolation(UserTable, "password_hash")} else {})
  }

  /** Commit a new User. */
  function InsertUser(s: Store, u: User, now: Timestamp): (w: Write)
    requires Valid(s)
    ensures Valid(w.store)
    ensures w.result.Success? <==> UserViolations(s, u) == {}
    ensures w.result.Failure? ==> w.store == s && w.result.error in UserViolations(s, u)
    ensures w.result.Success? ==>
              && AddsUser(s, w.store, w.result.value)
              && w.store.users[w.result.value] == UserWithDefaults(u, now)
  {
    if u.username.None? then Write(s, Failure(NotNullViolation(UserTable, "username")))
    else if u.email.None? then Write(s, Failure(NotNullViolation(UserTable, "email")))
    else if u.passwordHash.None? then Write(s, Failure(NotNullViolation(UserTable, "password_hash")))
    else if UsernameTaken(s, u.username.value) then Write(s, Failure(UniqueViolation(UserTable, "username")))
    else if EmailTaken(s, u.email.value) then Write(s, Failure(UniqueViolation(UserTable, "email")))
    else
      var id := NextId(s.users);
      Write(s.(users := s.users[id := UserWithDefaults(u, now)]), Success(id))
  }

  /** Set a committed user's password and commit. */
  function UpdatePassword(s: Store, id: Id, h: Hasher, password: string, salt: string): (w: Write)
    requires Valid(s)
    ensures Valid(w.store)
    ensures w.result.Failure? <==> id !in s.users
    ensures w.result.Failure? ==> w.store == s && w.result.error == NotFound(UserTable, id)
    ensures w.result.Success? ==>
              && w.store.users.Keys == s.users.Keys
              && w.store.(users := s.users) == s
              && (forall k :: k in s.users && k != id ==> w.store.users[k] == s.users[k])
              && w.store.users[id].(passwordHash := s.users[id].passwordHash) == s.users[id]
              // the hash is always recomputed from the password and this call's salt
              && w.store.users[id].passwordHash == Some(h.generate(password, salt))
              && (Sound(h) ==> CheckPassword(w.store.users[id], h, password) == Some(true))
  {
    if id !in s.users then Write(s, Failure(NotFound(UserTable, id)))
    else
      var t := s.(users := s.users[id := SetPassword(s.users[id], h, password, salt)]);
      assert forall i :: i in t.users ==> t.users[i].username == s.users[i].username;
      assert forall i :: i in t.users ==> t.users[i].email == s.users[i].email;
      Write(t, Success(id))
  }

  // ---------------------------------------------------------------------
  // Application

  /** The row committed for a new application: declared defaults filled in. */
  function ApplicationWithDefaults(a: Application, now: Timestamp): Application {
    a.(status := Some(a.status.GetOr(DefaultApplicationStatus)),
       createdAt := Some(a.createdAt.GetOr(now)),
       memoryLimit := Some(a.memoryLimit.GetOr(DefaultMemoryLimit)),
       cpuLimit := Some(a.cpuLimit.GetOr(DefaultCpuLimit)),
       diskLimit := Some(a.diskLimit.GetOr(DefaultDiskLimit)),
       autoRestart := Some(a.autoRestart.GetOr(DefaultAutoRestart)))
  }

  /** Every constraint a new application row would violate. */
  ghost function ApplicationViolations(s: Store, a: Application): set<DbError> {
    (if !FitsInteger(a.port) then {OutOfRange(ApplicationTable, "port")} else {})
    + (if !FitsInteger(a.memoryLimit) then {OutOfRange(ApplicationTable, "memory_limit")} else {})
    + (if !FitsInteger(a.cpuLimit) then {OutOfRange(ApplicationTable, "cpu_limit")} else {})
    + (if !FitsInteger(a.diskLimit) then {OutOfRange(ApplicationTable, "disk_limit")} else {})
    + (if a.name.None? then {NotNullViolation(ApplicationTable, "name")} else {})
    + (if a.replitUrl.None? then {NotNullViolation(ApplicationTable, "replit_url")} else {})
    + (if a.userId.None? then {NotNullViolation(ApplicationTable, "user_id")}
       else if a.userId.value !in s.users then {ForeignKeyViolation(ApplicationTable, "user_id")}
       else {})
  }

  /** Commit a new Application. Parameters are bound, and an out-of-range
      integer refused, before the database checks its constraints. */
  function InsertApplication(s: Store, a: Application, now: Timestamp): (w: Write)
    requires Valid(s)
    ensures Valid(w.store)
    ensures w.result.Success? <==> ApplicationViolations(s, a) == {}
    ensures w.result.Failure? ==> w.store == s && w.result.error in ApplicationViolations(s, a)
    ensures w.result.Success? ==>
              AddsApplication(s, w.store, w.result.value)
              && w.store.applications[w.result.value] == ApplicationWithDefaults(a, now)
  {
    if !FitsInteger(a.port) then Write(s, Failure(OutOfRange(ApplicationTable, "port")))
    else if !FitsInteger(a.memoryLimit) then Write(s, Failure(OutOfRange(ApplicationTable, "memory_limit")))
    else if !FitsInteger(a.cpuLimit) then Write(s, Failure(OutOfRange(ApplicationTable, "cpu_limit")))
    else if !FitsInteger(a.diskLimit) then Write(s, Failure(OutOfRange(ApplicationTable, "disk_limit")))
    else if a.name.None? then Write(s, Failure(NotNullViolation(ApplicationTable, "name")))
    else if a.replitUrl.None? then Write(s, Failure(NotNullViolation(ApplicationTable, "replit_url")))
    else if a.userId.None? then Write(s, Failure(NotNullViolation(ApplicationTable, "user_id")))
    else if a.userId.value !in s.users then Write(s, Failure(ForeignKeyViolation(ApplicationTable, "user_id")))
    else
      var id := NextId(s.applications);
      Write(s.(applications := s.applications[id := ApplicationWithDefaults(a, now)]), Success(id))
  }

  /** A committed application carries the declared defaults for every column
      the caller left unset, and the caller's value for every column it set. */
  lemma InsertedApplicationDefaults(s: Store, a: Application, now: Timestamp)
    requires Valid(s)
    requires InsertApplication(s, a, now).result.Success?
    ensures var w := InsertApplication(s, a, now);
            var row := w.store.applications[w.result.value];
            && row.status == Some(if a.status.Some? then a.status.value else "stopped")
            && row.memoryLimit == Some(if a.memoryLimit.Some? then a.memoryLimit.value else 256)
            && row.cpuLimit == Some(if a.cpuLimit.Some? then a.cpuLimit.value else 50)
            && row.diskLimit == Some(if a.diskLimit.Some? then a.diskLimit.value else 1024)
            && row.autoRestart == Some(if a.autoRestart.Some? then a.autoRestart.value else true)
            && row.createdAt == Some(if a.createdAt.Some? then a.createdAt.value else now)
            && row.name == a.name && row.replitUrl == a.replitUrl && row.userId == a.userId
            && row.description == a.description && row.port == a.port
            && row.installPath == a.installPath && row.lastDeployed == a.lastDeployed
            && row.appType == a.appType
  {
  }

  // ---------------------------------------------------------------------
  // DomainConfig

  /** The row committed for a new domain configuration: declared defaults
      filled in. */
  function DomainConfigWithDefaults(d: DomainConfig, now: Timestamp): DomainConfig {
    d.(isActive := Some(d.isActive.GetOr(DefaultDomainActive)),
       sslEnabled := Some(d.sslEnabled.GetOr(DefaultSslEnabled)),
       createdAt := Some(d.createdAt.GetOr(now)))
  }

  ghost function DomainConfigViolations(s: Store, d: DomainConfig): set<DbError> {
    (if d.domainName.None? then {NotNullViolation(DomainConfigTable, "domain_name")} else {})
    + (if d.applicationId.None? then {NotNullViolation(DomainConfigTable, "application_id")}
       else if d.applicationId.value !in s.applications then {ForeignKeyViolation(DomainConfigTable, "application_id")}
       else {})
  }

  /** Commit a new DomainConfig. */
  function InsertDomainConfig(s: Store, d: DomainConfig, now: Timestamp): (w: Write)
    requires Valid(s)
    ensures Valid(w.store)
    ensures w.result.Success? <==> DomainConfigViolations(s, d) == {}
    ensures w.result.Failure? ==> w.store == s && w.result.error in DomainConfigViolations(s, d)
    ensures w.result.Success? ==> AddsDomainConfig(s, w.store, w.result.value)
    ensures w.result.Success? ==> w.store.domainConfigs[w.result.value] == DomainConfigWithDefaults(d, now)
  {
    if d.domainName.None? then Write(s, Failure(NotNullViolation(DomainConfigTable, "domain_name")))
    else if d.applicationId.None? then Write(s, Failure(NotNullViolation(DomainConfigTable, "application_id")))
    else if d.applicationId.value !in s.applications then
      Write(s, Failure(ForeignKeyViolation(DomainConfigTable, "application_id")))
    else
      var id := NextId(s.domainConfigs);
      Write(s.(domainConfigs := s.domainConfigs[id := DomainConfigWithDefaults(d, now)]), Success(id))
  }

  /** A committed domain configuration is active and without SSL unless the
      caller said otherwise; every other column is as given. */
  lemma InsertedDomainConfigDefaults(s: Store, d: DomainConfig, now: Timestamp)
    requires Valid(s)
    requires InsertDomainConfig(s, d, now).result.Success?
    ensures var w := InsertDomainConfig(s, d, now);
            var row := w.store.domainConfigs[w.result.value];
            && row.isActive == Some(if d.isActive.Some? then d.isActive.value else true)
            && row.sslEnabled == Some(if d.sslEnabled.Some? then d.sslEnabled.value else false)
            && row.createdAt == Some(if d.createdAt.Some? then d.createdAt.value else now)
            && row.(isActive := d.isActive, sslEnabled := d.sslEnabled, createdAt := d.createdAt) == d
  {
  }

  // ---------------------------------------------------------------------
  // Backup

  /** The row committed for a new backup record: declared defaults filled in. */
  function BackupWithDefaults(b: Backup, now: Timestamp): Backup {
    b.(status := Some(b.status.GetOr(DefaultBackupStatus)), createdAt := Some(b.createdAt.GetOr(now)))
  }

  ghost function BackupViolations(s: Store, b: Backup): set<DbError> {
    (if !FitsInteger(b.backupSize) then {OutOfRange(BackupTable, "backup_size")} else {})
    + (if b.backupPath.None? then {NotNullViolation(BackupTable, "backup_path")} else {})
    + (if b.applicationId.None? then {NotNullViolation(BackupTable, "application_id")}
       else if b.applicationId.value !in s.applications then {ForeignKeyViolation(BackupTable, "application_id")}
       else {})
  }

  /** Commit a new Backup record; an out-of-range size is refused when it is
      bound, before the constraints are checked. */
  function InsertBackup(s: Store, b: Backup, now: Timestamp): (w: Write)
    requires Valid(s)
    ensures Valid(w.store)
    ensures w.result.Success? <==> BackupViolations(s, b) == {}
    ensures w.result.Failure? ==> w.store == s && w.result.error in BackupViolations(s, b)
    ensures w.result.Success? ==> AddsBackup(s, w.store, w.result.value)
    ensures w.result.Success? ==> w.store.backups[w.result.value] == BackupWithDefaults(b, now)
  {
    if !FitsInteger(b.backupSize) then Write(s, Failure(OutOfRange(BackupTable, "backup_size")))
    else if b.backupPath.None? then Write(s, Failure(NotNullViolation(BackupTable, "backup_path")))
    else if b.applicationId.None? then Write(s, Failure(NotNullViolation(BackupTable, "application_id")))
    else if b.applicationId.value !in s.applications then
      Write(s, Failure(ForeignKeyViolation(BackupTable, "application_id")))
    else
      var id := NextId(s.backups);
      Write(s.(backups := s.backups[id := BackupWithDefaults(b, now)]), Success(id))
  }

  /** A committed backup record is "completed" unless the caller gave a
      status; every other column is as given. */
  lemma InsertedBackupDefaults(s: Store, b: Backup, now: Timestamp)
    requires Valid(s)
    requires InsertBackup(s, b, now).result.Success?
    ensures var w := InsertBackup(s, b, now);
            var row := w.store.backups[w.result.value];
            && row.status == Some(if b.status.Some? then b.status.value else "completed")
            && row.createdAt == Some(if b.createdAt.Some? then b.createdAt.value else now)
            && row.(status := b.status, createdAt := b.createdAt) == b
  {
  }

  // ---------------------------------------------------------------------
  // DeploymentLog

  /** The row committed for a new log entry: `timestamp` filled in. */
  function LogWithDefaults(l: DeploymentLog, now: Timestamp): DeploymentLog {
    l.(timestamp := Some(l.timestamp.GetOr(now)))
  }

  ghost function LogViolations(s: Store, l: DeploymentLog): set<DbError> {
    (if l.action.None? then {NotNullViolation(DeploymentLogTable, "action")} else {})
    + (if l.status.None? then {NotNullViolation(DeploymentLogTable, "status")} else {})
    + (if l.userId.None? then {NotNullViolation(DeploymentLogTable, "user_id")}
       else if l.userId.value !in s.users then {ForeignKeyViolation(DeploymentLogTable, "user_id")}
       else {})
    + (if l.applicationId.None? then {NotNullViolation(DeploymentLogTable, "application_id")}
       else if l.applicationId.value !in s.applications then {ForeignKeyViolation(DeploymentLogTable, "application_id")}
       else {})
  }

  /** Commit a new DeploymentLog entry; `timestamp` defaults to the commit time. */
  function InsertLog(s: Store, l: DeploymentLog, now: Timestamp): (w: Write)
    requires Valid(s)
    ensures Valid(w.store)
    ensures w.result.Success? <==> LogViolations(s, l) == {}
    ensures w.result.Failure? ==> w.store == s && w.result.error in LogViolations(s, l)
    ensures w.result.Success? ==> AddsLog(s, w.store, w.result.value)
    ensures w.result.Success? ==> w.store.logs[w.result.value] == LogWithDefaults(l, now)
  {
    if l.action.None? then Write(s, Failure(NotNullViolation(DeploymentLogTable, "action")))
    else if l.status.None? then Write(s, Failure(NotNullViolation(DeploymentLogTable, "status")))
    else if l.userId.None? then Write(s, Failure(NotNullViolation(DeploymentLogTable, "user_id")))
    else if l.applicationId.None? then Write(s, Failure(NotNullViolation(DeploymentLogTable, "application_id")))
    else if l.userId.value !in s.users then Write(s, Failure(ForeignKeyViolation(DeploymentLogTable, "user_id")))
    else if l.applicationId.value !in s.applications then
      Write(s, Failure(ForeignKeyViolation(DeploymentLogTable, "application_id")))
    else
      var id := NextId(s.logs);
      Write(s.(logs := s.logs[id := LogWithDefaults(l, now)]), Success(id))
  }

  // ---------------------------------------------------------------------
  // Uniqueness, stated directly

  /** A second user with a username or an email already on record is refused,
      and the store is left exactly as it was. */
  lemma DuplicateUserRefused(s: Store, u: User, now: Timestamp)
    requires Valid(s)
    requires (u.username.Some? && UsernameTaken(s, u.username.value))
          || (u.email.Some? && EmailTaken(s, u.email.value))
    ensures InsertUser(s, u, now).result.Failure?
    ensures InsertUser(s, u, now).store == s
  {
    if u.username.Some? && UsernameTaken(s, u.username.value) {
      assert UniqueViolation(UserTable, "username") in UserViolations(s, u);
    } else {
      assert UniqueViolation(UserTable, "email") in UserViolations(s, u);
    }
  }
}

=== FILE: passwords.dfy ===
/** The password-hashing collaborator used by `User.set_password` and
    `User.check_password` (models.py). The real algorithm is a foreign salted
    one-way hash; here it is a pair of function values supplied by the caller,
    and the property the model relies on is stated as the predicate `Sound`. */
module Passwords {

  /** `generate(password, salt)` produces the stored hash string;
      `check(storedHash, password)` verifies a candidate password. The salt is
      the randomness the real hasher draws, taken here as a parameter. */
  datatype Hasher = Hasher(
    generate: (string, string) -> string,
    check: (string, string) -> bool)

  /** The hasher verifies every hash it generated against the password it was
      generated from, whatever the salt. */
  ghost predicate Sound(h: Hasher) {
    forall password, salt :: h.check(h.generate(password, salt), password)
  }
}

=== FILE: relationships.dfy ===
/** The relationship attributes of models.py (`User.applications`,
    `User.logs`, `Application.logs`, `Application.domain_configs`,
    `Application.backups`, and their back-references `owner`, `user` and
    `application`). They are lazy queries in the source; here each is the
    plain filter of a table by its foreign-key column. */
module Relationships {
  import opened Wrappers
  import opened Models

  /** The rows of `m` that satisfy `keep`, with their ids. */
  function Where<T>(m: map<Id, T>, keep: T -> bool): (r: map<Id, T>)
    ensures forall id :: id in r <==> id in m && keep(m[id])
    ensures forall id :: id in r ==> r[id] == m[id]
  {
    map id | id in m && keep(m[id]) :: m[id]
  }

  /** `User.applications`. */
  function ApplicationsOf(s: Store, userId: Id): (r: map<Id, Application>)
    ensures forall id :: id in r <==> id in s.applications && s.applications[id].userId == Some(userId)
    ensures forall id :: id in r ==> r[id] == s.applications[id]
  {
    Where(s.applications, (a: Application) => a.userId == Some(userId))
  }

  /** `User.logs`. */
  function LogsOfUser(s: Store, userId: Id): (r: map<Id, DeploymentLog>)
    ensures forall id :: id in r <==> id in s.logs && s.logs[id].userId == Some(userId)
    ensures forall id :: id in r ==> r[id] == s.logs[id]
  {
    Where(s.logs, (l: DeploymentLog) => l.userId == Some(userId))
  }

  /** `Application.logs`. */
  function LogsOfApplication(s: Store, appId: Id): (r: map<Id, DeploymentLog>)
    ensures forall id :: id in r <==> id in s.logs && s.logs[id].applicationId == Some(appId)
    ensures forall id :: id in r ==> r[id] == s.logs[id]
  {
    Where(s.logs, (l: DeploymentLog) => l.applicationId == Some(appId))
  }

  /** `Application.domain_configs`. */
  function DomainConfigsOf(s: Store, appId: Id): (r: map<Id, DomainConfig>)
    ensures forall id :: id in r <==> id in s.domainConfigs && s.domainConfigs[id].applicationId == Some(appId)
    ensures forall id :: id in r ==> r[id] == s.domainConfigs[id]
  {
    Where(s.domainConfigs, (d: DomainConfig) => d.applicationId == Some(appId))
  }

  /** `Application.backups`. */
  function BackupsOf(s: Store, appId: Id): (r: map<Id, Backup>)
    ensures forall id :: id in r <==> id in s.backups && s.backups[id].applicationId == Some(appId)
    ensures forall id :: id in r ==> r[id] == s.backups[id]
  {
    Where(s.backups, (b: Backup) => b.applicationId == Some(appId))
  }

  /** `Application.owner`, the back-reference of `User.applications`. */
  function Owner(s: Store, appId: Id): (u: User)
    requires Valid(s) && appId in s.applications
    ensures u == s.users[s.applications[appId].userId.value]
    ensures appId in ApplicationsOf(s, s.applications[appId].userId.value)
  {
    s.users[s.applications[appId].userId.value]
  }

  /** In a valid store every application appears in the `applications` view
      of exactly one user, the existing user its `user_id` names; the
      forward view and the back-reference agree. */
  lemma ApplicationInExactlyOneOwnerView(s: Store, appId: Id)
    requires Valid(s) && appId in s.applications
    ensures var owner := s.applications[appId].userId.value;
            && owner in s.users
            && appId in ApplicationsOf(s, owner)
            && (forall u :: appId in ApplicationsOf(s, u) <==> u == owner)
  {
  }

  /** Every child row appears in the view of the existing parent its foreign
      key names: domain configurations, backups and logs under their
      application, logs under their user. */
  lemma ChildrenInParentViews(s: Store)
    requires Valid(s)
    ensures forall id :: id in s.domainConfigs ==>
              var p := s.domainConfigs[id].applicationId.value;
              p in s.applications && id in DomainConfigsOf(s, p)
    ensures forall id :: id in s.backups ==>
              var p := s.backups[id].applicationId.value;
              p in s.applications && id in BackupsOf(s, p)
    ensures forall id :: id in s.logs ==>
              var a := s.logs[id].applicationId.value;
              var u := s.logs[id].userId.value;
              a in s.applications && id in LogsOfApplication(s, a)
              && u in s.users && id in LogsOfUser(s, u)
  {
  }

  /** A freshly committed user owns nothing yet: no application and no log
      can name a key that did not exist when it was written. */
  lemma NewUserOwnsNothing(s: Store, u: User, now: Timestamp)
    requires Valid(s)
    requires InsertUser(s, u, now).result.Success?
    ensures var w := InsertUser(s, u, now);
            ApplicationsOf(w.store, w.result.value) == map[]
            && LogsOfUser(w.store, w.result.value) == map[]
  {
    var w := InsertUser(s, u, now);
    var id := w.result.value;
    assert id !in s.users;
    assert forall a :: a in w.store.applications ==> w.store.applications[a].userId != Some(id);
    assert forall l :: l in w.store.logs ==> w.store.logs[l].userId != Some(id);
  }

  /** Filtering a table after adding a fresh row is filtering it before,
      plus that row when it passes the filter. */
  lemma WhereAfterAdd<T>(m: map<Id, T>, k: Id, v: T, keep: T -> bool)
    requires k !in m
    ensures Where(m[k := v], keep) == if keep(v) then Where(m, keep)[k := v] else Where(m, keep)
  {
    var lhs := Where(m[k := v], keep);
    var rhs := if keep(v) then Where(m, keep)[k := v] else Where(m, keep);
    assert lhs.Keys == rhs.Keys;
    assert forall i :: i in lhs ==> lhs[i] == rhs[i];
  }

  /** Committing an application adds it to its owner's view and to no other
      user's. */
  lemma InsertApplicationUpdatesViews(s: Store, a: Application, now: Timestamp)
    requires Valid(s)
    requires InsertApplication(s, a, now).result.Success?
    ensures var w := InsertApplication(s, a, now);
            var id := w.result.value;
            && ApplicationsOf(w.store, a.userId.value)
               == ApplicationsOf(s, a.userId.value)[id := w.store.applications[id]]
            && (forall u :: u != a.userId.value ==> ApplicationsOf(w.store, u) == ApplicationsOf(s, u))
  {
    var w := InsertApplication(s, a, now);
    var id := w.result.value;
    var row := w.store.applications[id];
    assert row.userId == a.userId;
    assert w.store.applications == s.applications[id := row];
    forall u
      ensures ApplicationsOf(w.store, u)
              == if u == a.userId.value then ApplicationsOf(s, u)[id := row] else ApplicationsOf(s, u)
    {
      WhereAfterAdd(s.applications, id, row, (x: Application) => x.userId == Some(u));
    }
  }

  /** A freshly committed application has no logs, domain configurations or
      backups: no child row can name a key that did not exist when it was
      written. */
  lemma NewApplicationHasNoChildren(s: Store, a: Application, now: Timestamp)
    requires Valid(s)
    requires InsertApplication(s, a, now).result.Success?
    ensures var w := InsertApplication(s, a, now);
            var id := w.result.value;
            && LogsOfApplication(w.store, id) == map[]
            && DomainConfigsOf(w.store, id) == map[]
            && BackupsOf(w.store, id) == map[]
  {
    var w := InsertApplication(s, a, now);
    var id := w.result.value;
    assert id !in s.applications;
    assert forall l :: l in w.store.logs ==> w.store.logs[l].applicationId != Some(id);
    assert forall d :: d in w.store.domainConfigs ==> w.store.domainConfigs[d].applicationId != Some(id);
    assert forall b :: b in w.store.backups ==> w.store.backups[b].applicationId != Some(id);
  }

  /** Committing a log entry adds it to its application's `logs` view and
      to no other application's. */
  lemma InsertLogUpdatesApplicationViews(s: Store, l: DeploymentLog, now: Timestamp)
    requires Valid(s)
    requires InsertLog(s, l, now).result.Success?
    ensures var w := InsertLog(s, l, now);
            var id := w.result.value;
            && LogsOfApplication(w.store, l.applicationId.value)
               == LogsOfApplication(s, l.applicationId.value)[id := w.store.logs[id]]
            && (forall p :: p != l.applicationId.value ==> LogsOfApplication(w.store, p) == LogsOfApplication(s, p))
  {
    var w := InsertLog(s, l, now);
    var id := w.result.value;
    var row := w.store.logs[id];
    assert row.applicationId == l.applicationId;
    assert w.store.logs == s.logs[id := row];
    forall p
      ensures LogsOfApplication(w.store, p)
              == if p == l.applicationId.value then LogsOfApplication(s, p)[id := row] else LogsOfApplication(s, p)
    {
      WhereAfterAdd(s.logs, id, row, (x: DeploymentLog) => x.applicationId == Some(p));
    }
  }

  /** Committing a log entry adds it to its user's `logs` view and to no
      other user's. */
  lemma InsertLogUpdatesUserViews(s: Store, l: DeploymentLog, now: Timestamp)
    requires Valid(s)
    requires InsertLog(s, l, now).result.Success?
    ensures var w := InsertLog(s, l, now);
            var id := w.result.value;
            && LogsOfUser(w.store, l.userId.value) == LogsOfUser(s, l.userId.value)[id := w.store.logs[id]]
            && (forall u :: u != l.userId.value ==> LogsOfUser(w.store, u) == LogsOfUser(s, u))
  {
    var w := InsertLog(s, l, now);
    var id := w.result.value;
    var row := w.store.logs[id];
    assert row.userId == l.userId;
    assert w.store.logs == s.logs[id := row];
    forall u
      ensures LogsOfUser(w.store, u)
              == if u == l.userId.value then LogsOfUser(s, u)[id := row] else LogsOfUser(s, u)
    {
      WhereAfterAdd(s.logs, id, row, (x: DeploymentLog) => x.userId == Some(u));
    }
  }

  /** Create an application for an existing user, then log a successful
      deploy of it: the application's `logs` view holds exactly that one
      entry, with the action and status given. */
  lemma DeployLogScenario(s: Store, owner: Id, now: Timestamp)
    requires Valid(s) && owner in s.users
    ensures var app := Application(Some("site"), Some("https://x"), None, None, None, None, None, None,
                                   None, None, None, None, None, Some(owner));
            var w1 := InsertApplication(s, app, now);
            w1.result.Success? &&
            var entry := DeploymentLog(Some("deploy"), Some("success"), None, None, Some(owner),
                                       Some(w1.result.value));
            var w2 := InsertLog(w1.store, entry, now);
            && w2.result.Success?
            && LogsOfApplication(w2.store, w1.result.value).Keys == {w2.result.value}
            && LogsOfApplication(w2.store, w1.result.value)[w2.result.value].action == Some("deploy")
            && LogsOfApplication(w2.store, w1.result.value)[w2.result.value].status == Some("success")
  {
    var app := Application(Some("site"), Some("https://x"), None, None, None, None, None, None,
                           None, None, None, None, None, Some(owner));
    var w1 := InsertApplication(s, app, now);
    assert ApplicationViolations(s, app) == {};
    NewApplicationHasNoChildren(s, app, now);
    var entry := DeploymentLog(Some("deploy"), Some("success"), None, None, Some(owner), Some(w1.result.value));
    assert LogViolations(w1.store, entry) == {};
    InsertLogUpdatesApplicationViews(w1.store, entry, now);
  }
}

=== FILE: wrappers.dfy ===
/** Wrappers used throughout the model: a nullable value
    (an optional column, an unset environment variable) and the outcome of a
    database operation that can be refused. */
module Wrappers {

  /** A value that may be absent: SQL NULL, an omitted keyword argument, or an
      unset environment variable. */
  datatype Option<+T> = None | Some(value: T) {

    /** The wrapped value, or `default` when absent. */
    function GetOr(default: T): T {
      match this
      case Some(v) => v
      case None => default
    }
  }

  /** The result of an operation that either succeeds with a value or is
      refused with an error. */
  datatype Result<+R, +E> = Success(value: R) | Failure(error: E)
}
